=== FILE: README.md ===
# BlockCode component core: a Dafny model

A Dafny model of the project-state core of the BlockCode editor components. It
has three layers, and each is written as pure functions over immutable data:

- **The editor session store** (`src/hooks/editor-provider.js`).
  - The reducer with its thirteen actions.
  - The `autoRename` collision resolver.
  - The `useEditor` operations that check existence and resolve names before
    they dispatch: `addFile`, `openFile`, `deleteFile`, `modifyFile`,
    `addAsset`, `deleteAsset`, `modifyAsset`, plus the plain dispatchers
    `closeProject`, `setProjectName`, `setDevice`, `setEditor` and
    `setModified`.
- **The project store** (`src/contexts/project-context.jsx`).
  - It holds project fields and two ordered collections, files and assets.
    Each collection has a current selection, and the store keeps a
    modification counter.
  - It covers the computed `fileIndex`/`file`/`assetIndex`/`asset`, and the
    batched add, set, delete and open operations for files and assets.
  - It also covers `openProject` and `closeProject`.
- **The `.bcp` project file** (`src/lib/project-file.js`).
  - Saving strips the asset data from `project.json` into `<id>.png` entries.
  - Opening parses `project.json` and reattaches every payload.

Modules, one concern each:

| file | module | content |
|---|---|---|
| `wrappers.dfy` | `Wrappers` | `Option`, `Result` |
| `records.dfy` | `Records` | JavaScript values and truthiness; the file/asset record; shallow merge; `find`, `findIndex`, `filter`; the `TypeError` fault |
| `text.dfy` | `Text` | `trim`, trailing digit runs, `parseInt`, number-to-string |
| `naming.dfy` | `Naming` | `autoRename` and the regular expressions it builds |
| `editor_reducer.dfy` | `EditorActions`, `EditorReducer` | the action set; the session state and reducer |
| `editor.dfy` | `Editor`, `EditorSession` | the `useEditor` operations; the session invariant |
| `project_store.dfy` | `ProjectStore` | the project store |
| `bundle.dfy` | `Bundle` | saving and opening a `.bcp` archive |

A thrown JavaScript exception becomes the `Failure` case of a `Result`.

A failing check in a `useEditor` operation throws before anything is
dispatched, so a `Failure` also means the session is unchanged.

Reading a property of the null collection of a closed project gives
`Failure(TypeError)`.

Four inputs are parameters rather than effects:
- the clock reading `Date.now().toString(36)`, carried in the `OpenProject` action;
- `nanoid()`, the `newId` argument;
- the translator applied by `maybeTranslate`, a function argument;
- the archive library, modelled as a map from entry names to payloads.

## Model

| member | source | states |
|---|---|---|
| Records.Merge | src/hooks/editor-provider.js:86-91 | `{...file, ...payload}`: the id and the name are the payload's when it gives them and the record's otherwise; the merged record has the union of both key sets, the payload wins on every key it carries, and the record's value survives on every other key |
| Records.Truthy | src/lib/project-file.js:9 | JavaScript truthiness: null, false, 0 and the empty string are falsy; every other value, arrays and objects included, is truthy |
| Records.Given | src/contexts/project-context.jsx:40 | truthiness of an optional string such as `res.id`, `data.name` or `action.payload.id`: present and not empty |
| Records.FindIndex | src/hooks/editor-provider.js:71 | `findIndex`: -1 exactly when no record has the id; otherwise a position holding the id with no earlier position holding it |
| Records.Find | src/contexts/project-context.jsx:43 | `find`: some record exactly when the id occurs, and then it is the record at `findIndex` |
| Records.Reject | src/hooks/editor-provider.js:106 | `filter(x => !ids.includes(x.id))`: a record survives exactly when it was present and its id is not in the batch |
| Records.RejectAppend | src/hooks/editor-provider.js:73 | filtering distributes over concatenation, so relative order is kept |
| Records.RejectOne | src/hooks/editor-provider.js:71-73 | with distinct ids, filtering out one present id removes exactly the element at its `findIndex` |
| Records.RejectNone | src/hooks/editor-provider.js:73 | filtering out an absent id changes nothing |
| Records.DistinctAfterSplice | src/contexts/project-context.jsx:93 | removing one element keeps ids distinct |
| Records.RejectKeepsDistinct | src/hooks/editor-provider.js:106 | filtering keeps ids distinct |
| Records.MergeWhere | src/hooks/editor-provider.js:86-94 | the `map` of MODIFY_FILE/MODIFY_ASSET: same length; every record with the target id is merged with the payload and every other record is unchanged |
| Text.Trim | src/hooks/editor-provider.js:145 | `trim()`: the result is a contiguous slice of the input with only white space before and after it, and neither of its ends is white space (ECMAScript WhiteSpace and LineTerminator) |
| Text.TrimEnd | src/hooks/editor-provider.js:145 | a prefix of the input; everything dropped is white space and the last character kept is not |
| Text.TrimStart | src/hooks/editor-provider.js:145 | a suffix of the input; everything dropped is white space and the first character kept is not |
| Text.TrimFixpoint | src/hooks/editor-provider.js:145 | a string with no white space at either end is its own trim |
| Text.TrimIdempotent | src/hooks/editor-provider.js:145 | trimming twice equals trimming once |
| Text.IsSpace | src/hooks/editor-provider.js:145 | what `trim()` removes: the ECMAScript WhiteSpace and LineTerminator characters |
| Text.DigitRunStart | src/hooks/editor-provider.js:147 | the split `/\d+$/` makes: everything after the point is digits, and the character before it is not a digit |
| Text.DigitRunOfConcat | src/hooks/editor-provider.js:147 | a digit-free-ended stem followed by digits splits exactly at the stem's end |
| Text.DigitChar | src/hooks/editor-provider.js:159 | a digit character whose value is the given digit |
| Text.DigitValue | src/hooks/editor-provider.js:153 | the value `parseInt` gives a decimal digit character, below ten |
| Text.ParseDecimal | src/hooks/editor-provider.js:153 | `parseInt` of a run of decimal digits: its value in base ten, the most significant digit first |
| Text.DecimalString | src/hooks/editor-provider.js:159 | `${n}` is a non-empty run of decimal digits with no leading zero: `0` for zero, a non-zero first digit otherwise |
| Text.ParseDecimalString | src/hooks/editor-provider.js:153 | `parseInt` inverts number-to-string |
| Naming.Stem | src/hooks/editor-provider.js:147 | `name.replace(/\d+$/, '')` is a prefix of the name that ends in no digit, and only digits were removed |
| Naming.Matches | src/hooks/editor-provider.js:148-151 | `nameRe.exec(n)` succeeds: `n` ends in a non-empty digit run, immediately preceded by the stem |
| Naming.Suffix | src/hooks/editor-provider.js:153 | `parseInt(result[1])`: the value of the name's trailing digit run, which is what the capture group holds |
| Naming.NameTaken | src/hooks/editor-provider.js:146 | `items.find((file) => file.name === name)` finds a record: some record has exactly that name |
| Naming.DigitRunWithin | src/hooks/editor-provider.js:148 | appending digits never moves the digit-run start past the original end |
| Naming.RegexSplit | src/hooks/editor-provider.js:148 | any name written as prefix, stem, digits is matched by `${stem}(\d+)$`, and for a non-empty stem the captured group is exactly those digits |
| Naming.MatchSplit | src/hooks/editor-provider.js:148 | conversely, a match splits the name as prefix, stem, captured digits |
| Naming.MaxSuffix | src/hooks/editor-provider.js:149-158 | the loop's `nameNum`: an upper bound of every matching name's number, and either 0 or attained by some matching name |
| Naming.NumberedName | src/hooks/editor-provider.js:159 | stem plus a number is matched by the stem, has that stem, and carries that number |
| Naming.NextNumber | src/hooks/editor-provider.js:149-159 | the number chosen is above every matching name's number, and is 1 or one more than some matching name's number |
| Naming.MaxIsAttained | src/hooks/editor-provider.js:149-158 | a non-zero maximum is the number of some matching name |
| Naming.NextName | src/hooks/editor-provider.js:159 | the generated name is the stem followed by the next number with no leading zero; it has that stem, matches it, and reads back as the next number |
| Naming.NotTaken | src/hooks/editor-provider.js:159 | the generated name collides with no existing name |
| Naming.AutoRename | src/hooks/editor-provider.js:144-162 | the result is never an existing name; a free trimmed name is kept as is; a taken one becomes its stem plus the next number |
| Naming.SpriteExample | src/hooks/editor-provider.js:144-162 | with `Sprite1` and `Sprite2` present, `Sprite1` becomes `Sprite3` and `Sprite` is kept |
| Naming.SpriteNextName | src/hooks/editor-provider.js:159 | with `Sprite1` and `Sprite2` present, the next name for stem `Sprite` is `Sprite3` |
| Naming.SpriteKept | src/hooks/editor-provider.js:145-146 | with `Sprite1` and `Sprite2` present, `Sprite` is free and kept |
| Naming.SpriteCollides | src/hooks/editor-provider.js:146-147 | with `Sprite1` and `Sprite2` present, `Sprite1` collides and is renamed from stem `Sprite` |
| Naming.SpriteNumber | src/hooks/editor-provider.js:149-158 | with `Sprite1` and `Sprite2` present, the next number for `Sprite` is 3 |
| EditorReducer.Initial | src/hooks/editor-provider.js:24-33 | `initialState`: no key, an empty name, no editor, empty asset and file lists, nothing selected, no device, not modified |
| EditorReducer.OpenProject | src/hooks/editor-provider.js:44-51 | every payload field wins and every omitted field takes its initial value, except that a missing editor is inherited and a missing or empty key comes from the clock; the modified flag is the payload's, else false |
| EditorReducer.OpenProjectForgetsState | src/hooks/editor-provider.js:44-51 | the state before OPEN_PROJECT matters only through its editor |
| EditorReducer.Append | src/hooks/editor-provider.js:61 | `concat`: the old list followed by the new record |
| EditorReducer.DeleteFileAsWritten | src/hooks/editor-provider.js:70-82 | DELETE_FILE as written throws exactly when the id is present and removing it empties the list; otherwise it agrees with the corrected DELETE_FILE |
| EditorReducer.DeleteLastFileThrows | src/hooks/editor-provider.js:74-80 | deleting the only file throws |
| EditorReducer.DeleteFile | src/hooks/editor-provider.js:70-82 | an unknown id changes nothing; otherwise the list is filtered, the flag set, and a selection is left exactly when a file is left, naming a remaining file |
| EditorReducer.DeleteFileSelection | src/hooks/editor-provider.js:71-80 | with distinct ids: exactly the one file is spliced out, and the selection moves to its successor, else its predecessor, else nothing |
| EditorReducer.ModifyFile | src/hooks/editor-provider.js:83-96 | the file(s) named by the payload id, or by the selection when it has none, are merged with the payload; length, order and every other file are unchanged; the flag is set |
| EditorReducer.FileTarget | src/hooks/editor-provider.js:87 | the id MODIFY_FILE matches: the payload's id when it is truthy, the selected file's otherwise |
| EditorReducer.ModifyFileKeepsIds | src/hooks/editor-provider.js:86-91 | for a payload whose `id` is not the empty string, no file's id changes |
| EditorReducer.ModifyAsset | src/hooks/editor-provider.js:109-122 | only assets whose id equals the payload's are merged; every id is kept; the flag is set |
| EditorReducer.DeleteAssets | src/hooks/editor-provider.js:103-108 | exactly the assets whose id is not in the batch remain, in their original order and multiplicity (the list `filter` gives); the flag is set |
| EditorReducer.ConfigEditor | src/hooks/editor-provider.js:128-133 | the editor record gains the configuration's keys with its values and keeps its other values; an absent editor counts as empty |
| EditorReducer.Reduce | src/hooks/editor-provider.js:40-142 | the modified flag per action: set by every edit, kept by selection and device changes, cleared by close, and taken from the payload by SAVE_DATA and OPEN_PROJECT; OPEN_FILE and CONNECT_DEVICE change only their own field; SET_PROJECT_NAME sets the name and SAVE_DATA the key when it gives one, and neither changes anything else |
| EditorReducer.CloseForgets | src/hooks/editor-provider.js:42-43 | closing reaches the initial state from every state |
| Editor.RenameItem | src/hooks/editor-provider.js:193-195 | a non-empty name is replaced by `autoRename` of it against the list, a name no existing record carries; an empty name is left alone; id and other fields are untouched |
| Editor.RenamePatch | src/hooks/editor-provider.js:212-214 | the same on an update: only a given, non-empty name is replaced, by its `autoRename` against the list |
| Editor.AddFile | src/hooks/editor-provider.js:189-197 | fails with FileAlreadyExists exactly when the id is present; otherwise the renamed file is appended, selected, and the flag set |
| Editor.OpenFile | src/hooks/editor-provider.js:199-204 | fails with FileNotFound exactly when the id is absent; otherwise only the selection changes |
| Editor.DeleteFile | src/hooks/editor-provider.js:206-208 | equals the as-written DELETE_FILE wherever that one does not throw; where it throws, leaves no file and no selection; keeps ids distinct; when the file existed, a selection is left exactly when a file is left; a new selection names a remaining file |
| Editor.ModifyFile | src/hooks/editor-provider.js:210-219 | fails with FileNotFound exactly when no file carries the target id; otherwise it is MODIFY_FILE with the name resolved |
| Editor.AddAsset | src/hooks/editor-provider.js:221-230 | fails with AssetAlreadyExists exactly when the id is present; otherwise the renamed asset is appended, the flag set, and the file selection kept |
| Editor.Batch | src/hooks/editor-provider.js:232-235 | a leading array replaces the argument list; otherwise the batch holds exactly the ids passed one by one |
| Editor.Singles | src/hooks/editor-provider.js:232 | an id is in the result exactly when it was passed as its own argument |
| Editor.DeleteAsset | src/hooks/editor-provider.js:232-237 | never fails; exactly the assets outside the batch remain, in their original order |
| Editor.ModifyAsset | src/hooks/editor-provider.js:239-248 | fails with AssetNotFound exactly when no asset carries the payload id; otherwise it is MODIFY_ASSET with the name resolved |
| EditorSession.Invoke | src/hooks/editor-provider.js:164-302 | the `useEditor` surface, with the corrected `deleteFile`: only `addFile`, `openFile`, `modifyFile`, `addAsset` and `modifyAsset` can throw; `closeProject` gives the initial session and `setModified` changes only the flag |
| EditorSession.InvokeKeepsValid | src/hooks/editor-provider.js:164-302 | every `useEditor` call keeps file ids distinct, asset ids distinct and the selection pointing at an existing file; the exceptions are a file update with an empty id and a patch that carries `id` or `name` among its free-form fields |
| EditorSession.AddFileKeepsValid | src/hooks/editor-provider.js:189-197 | `addFile` keeps the session invariant |
| EditorSession.AddAssetKeepsValid | src/hooks/editor-provider.js:221-230 | `addAsset` keeps the session invariant |
| EditorSession.DeleteFileKeepsValid | src/hooks/editor-provider.js:206-208 | `deleteFile` keeps the session invariant |
| EditorSession.DeleteAssetKeepsValid | src/hooks/editor-provider.js:232-237 | `deleteAsset` keeps the session invariant |
| EditorSession.OpenFileKeepsValid | src/hooks/editor-provider.js:199-204 | `openFile` keeps the session invariant |
| EditorSession.UncheckedCallKeepsValid | src/hooks/editor-provider.js:170-187 | the calls that touch neither list nor selection always succeed and keep the session invariant |
| EditorSession.ModifyFileKeepsValid | src/hooks/editor-provider.js:210-219 | `modifyFile` with a canonical patch and without an empty id keeps the session invariant |
| EditorSession.ModifyAssetKeepsValid | src/hooks/editor-provider.js:239-248 | `modifyAsset` with a canonical patch keeps the session invariant |
| ProjectStore.Closed | src/contexts/project-context.jsx:12-29 | the store's initial signal values, which `closeProject` restores: everything null, an empty name, a zero counter (the asset signals at lines 100-102 likewise) |
| ProjectStore.SelectedIndex | src/contexts/project-context.jsx:32 | -1 exactly for a null list, no selection, or a selection naming no record; otherwise the first position of the selected id |
| ProjectStore.SelectedItem | src/contexts/project-context.jsx:33 | null exactly when the index is -1; otherwise the record at the index |
| ProjectStore.FileIndex | src/contexts/project-context.jsx:32 | `fileIndex`: -1 exactly when the files are null, nothing is selected or the selection dangles; otherwise the first position of the selected id |
| ProjectStore.File | src/contexts/project-context.jsx:33 | `file`: null exactly when `fileIndex` is -1; otherwise the file at `fileIndex` |
| ProjectStore.AssetIndex | src/contexts/project-context.jsx:103 | `assetIndex`, as `fileIndex` on the assets |
| ProjectStore.Asset | src/contexts/project-context.jsx:104 | `asset`, as `file` on the assets |
| ProjectStore.OpenFile | src/contexts/project-context.jsx:35-37 | the selection is set unchecked; a dangling one makes `file` null and `fileIndex` -1 |
| ProjectStore.OpenAsset | src/contexts/project-context.jsx:106-108 | the selection is set unchecked; a dangling one makes `asset` null and `assetIndex` -1 |
| ProjectStore.IdOrFresh | src/contexts/project-context.jsx:40-42 | the id `addFile` stores: the record's own when truthy, else the fresh one |
| ProjectStore.TargetOf | src/contexts/project-context.jsx:55-61 | the id `setFile` updates: the update's own when truthy, else the selection |
| ProjectStore.Locate | src/contexts/project-context.jsx:55-61 | the update throws exactly when it carries an id and the list is null; it lands at the first position of the target id when one exists |
| ProjectStore.MergeKeepId | src/contexts/project-context.jsx:63 | `Object.assign(found, res, {id: found.id})`: the update's name and fields, the original id |
| ProjectStore.SetFile | src/contexts/project-context.jsx:54-66 | fails exactly when an id is given on a closed project; no target file means no change; otherwise only the target changes, keeping its id and taking the update's name and fields, and the counter goes up by one |
| ProjectStore.SetAsset | src/contexts/project-context.jsx:125-137 | as `setFile`, on the assets |
| ProjectStore.AddFile | src/contexts/project-context.jsx:39-52 | fails exactly on a closed project; a taken id makes it exactly `setFile`; otherwise the file is appended with its own id or a fresh one, selected, and the counter goes up by one |
| ProjectStore.AsUpdate | src/contexts/project-context.jsx:44 | the `res` that `addFile` hands to `setFile` for a taken id: its id (own or fresh), its name and its other fields |
| ProjectStore.AddAsset | src/contexts/project-context.jsx:110-123 | as `addFile`, on the assets |
| ProjectStore.DeletionIndex | src/contexts/project-context.jsx:79-82 | the lookup throws exactly when the id is not the selected one and the list is null; otherwise the first position of the id, or -1 |
| ProjectStore.DelFile | src/contexts/project-context.jsx:78-96 | fails exactly when the id is unselected on a closed project; an unknown id means no change; otherwise the first file with the id is spliced out, the selection moves to the file now at that position, else the new last file, else nothing, and the counter goes up by one |
| ProjectStore.DelAsset | src/contexts/project-context.jsx:149-161 | as `delFile`, except that the asset selection is always cleared |
| ProjectStore.Translated | src/contexts/project-context.jsx:164-167 | null stays null; otherwise same length, ids and fields, with each name translated |
| ProjectStore.OpenProject | src/contexts/project-context.jsx:169-180 | meta, id, selections taken as given; the name and every record name translated; a missing key becomes a fresh one; the counter untouched |
| ProjectStore.OpenProjectForgets | src/contexts/project-context.jsx:169-180 | the previous project matters only through its counter |
| ProjectStore.CloseProject | src/contexts/project-context.jsx:183-195 | every field empty, both collections null, both selections null, the counter zero, and so no file or asset selected |
| ProjectStore.AddFileKeepsDistinct | src/contexts/project-context.jsx:39-66 | adding to an open project succeeds and keeps file ids distinct; with a non-empty id the counter goes up by exactly one |
| ProjectStore.DelFileKeepsDistinct | src/contexts/project-context.jsx:78-96 | deleting from an open project succeeds, keeps ids distinct, and a selection it sets names a remaining file |
| ProjectStore.AddAssetKeepsDistinct | src/contexts/project-context.jsx:110-137 | adding to an open project succeeds and keeps asset ids distinct; with a non-empty id the counter goes up by exactly one |
| ProjectStore.DelAssetKeepsDistinct | src/contexts/project-context.jsx:149-161 | deleting from an open project succeeds, keeps asset ids distinct, and leaves no asset selected |
| Bundle.EntryInjective | src/lib/project-file.js:10 | two assets share an entry name exactly when they share an id |
| Bundle.Entry | src/lib/project-file.js:10 | the entry name `${asset.id}.png`: the id followed by `.png` |
| Bundle.TypeFault | src/lib/project-file.js:9 | `asset.type.startsWith` throws: the asset has truthy data and no string `type` |
| Bundle.HasData | src/lib/project-file.js:9 | the `data &&` test: the asset has a truthy `data` field |
| Bundle.Emits | src/lib/project-file.js:9 | an entry is written: the asset has truthy data and a `type` that starts with `image/` |
| Bundle.Strip | src/lib/project-file.js:8 | `({data, ...asset})`: id, name and every field except `data` kept, `data` gone |
| Bundle.StripAll | src/lib/project-file.js:8-13 | same length, each asset stripped |
| Bundle.Payloads | src/lib/project-file.js:8-13 | an entry exists for every asset with truthy data and an `image/` type, and only for those |
| Bundle.PayloadIsLastWrite | src/lib/project-file.js:10 | an entry holds the data of the last asset written under that id |
| Bundle.FileName | src/lib/project-file.js:19 | ends in `.bcp`; starts with the project name, or is `project.bcp` for an empty name |
| Bundle.Export | src/lib/project-file.js:4-20 | fails exactly when an asset with truthy data has no string `type`; otherwise `project.json` holds the project with every asset stripped, the payload entries are as above, and the file name is the project's |
| Bundle.Reattach | src/lib/project-file.js:42 | `{data, ...asset}`: the payload under `data` unless the stored record has its own, every stored field kept |
| Bundle.ReattachAll | src/lib/project-file.js:39-43 | same length, each stored asset given its entry's payload |
| Bundle.ImportAsWritten | src/lib/project-file.js:22-47 | no `project.json`: never settles; unparsable: ParseError; no asset list: the record as parsed; otherwise it succeeds exactly when every asset has its entry, else never settles |
| Bundle.ReattachStripped | src/lib/project-file.js:8-10 | stripping and reattaching an image asset gives it back |
| Bundle.StripReattachAt | src/lib/project-file.js:8-42 | with distinct ids, an image asset has its entry and comes back whole |
| Bundle.StrippedEntries | src/lib/project-file.js:8-41 | with distinct ids, every asset of an image-only list finds its entry |
| Bundle.StripReattach | src/lib/project-file.js:8-43 | with distinct ids, an image-only asset list survives save and open unchanged |
| Bundle.ImageRoundTripAsWritten | src/lib/project-file.js:4-47 | as written, a project whose assets all carry image data under distinct ids opens to exactly the saved project |
| Bundle.UnwrittenAssetNeverOpens | src/lib/project-file.js:9-41 | as written, an asset without image data whose id no image asset shares makes opening the saved file never settle |
| Bundle.RestoreAll | src/lib/project-file.js:39-43 | same length; an asset with an entry gets its payload, one without keeps its stored record |
| Bundle.Import | src/lib/project-file.js:22-47 | corrected opening: the same failures for `project.json`, but every parsed project opens, assets without an entry kept as stored |
| Bundle.ImportAgrees | src/lib/project-file.js:39-43 | when every asset has its entry, corrected and as-written opening agree |
| Bundle.NoEntryAt | src/lib/project-file.js:9-10 | with distinct ids, no entry is written for an asset without image data |
| Bundle.RestoreAt | src/lib/project-file.js:8-42 | with distinct ids, an image asset comes back whole and any other asset comes back without its data |
| Bundle.RoundTrip | src/lib/project-file.js:4-47 | saving then opening (corrected) a project with distinct asset ids gives back the name, the other fields and every asset in order: image assets whole, others without their data |

## Left out

- Preact components and contexts: observers of `batch` see each operation of the project store as one atomic transition.
- ProjectStore.FileIndex, ProjectStore.File, ProjectStore.AssetIndex, ProjectStore.Asset, ProjectStore.SetFile, ProjectStore.SetAsset, ProjectStore.DelFile, ProjectStore.DelAsset: these model a freshly recomputed lookup. In the code, `fileIndex`/`file` and `assetIndex`/`asset` are `computed` signals that recompute only when `files`/`assets` or the selection is assigned a new value. The store changes its arrays in place (`push`, `splice`, index assignment; project-context.jsx:48, 63, 93, 119, 134, 158), so a cached index can go stale. For example, with files `[a, b]` and `b` selected, `delFile(a)` leaves `fileIndex` at 1; a following `delFile(b)` then splices position 1 of `[b]` and removes nothing, where the model removes `b`. Signal caching is not modelled.
- Persistence through localForage (`openProject` by key, `saveNow`, `saveToComputer`, `listProjects`, deletion, renaming, duplication): it is I/O against an external store. The clock and the `onSave`/`onOpen` callbacks belong to it too.
- `getFile`/`getAsset` in the project store. The first branch compares a computed signal object with the argument, so it never fires. An argument other than the selected id reaches `find`, which is modelled. When the argument equals the selected id, the function returns the computed signal object itself rather than a record (lines 75 and 146); that case is not modelled.
- The archive library, JSON text and base64: the archive is a map from entry names to payload values. `project.json` is either a parsed project or unparsable text, and a payload is read back as it was written.
- Numbers are integers; JavaScript floating point, numbers beyond 2^53 and exponent formatting in `${n}` are not modelled.
- Records without an `id` or a `name`: every file and asset has both as strings. In an update patch, a `name` given as null or undefined is modelled as omitted, although the spread in the code would copy it into the record.
- An unknown action type (the reducer's default branch): the action set is closed.
- CONFIG_EDITOR mutates the current editor record in place (`Object.assign(state.editor || {}, …)`). The model builds a new record, so the aliasing of the old state is not modelled.
- Naming.Matches: the stem is inserted into the regular expression as written. A stem containing regular-expression metacharacters is treated as literal text.
- Naming.AutoRename: `modifyFile`/`modifyAsset` resolve the new name against the list that still holds the record being modified. Renaming a record to its own name therefore still produces a numbered name. The model keeps this behaviour and states nothing more about it.
- EditorSession.InvokeKeepsValid: excludes `modifyFile` with an empty payload id. Such a payload targets the selected file but its `id` field is merged into it, so the session invariant does not hold.
- EditorSession.InvokeKeepsValid, EditorSession.ModifyFileKeepsValid, EditorSession.ModifyAssetKeepsValid, EditorReducer.ModifyFileKeepsIds: require a canonical patch, one with no `id` or `name` among its free-form fields. Only such a patch stands for a JavaScript object, and the model's merge never reads the free-form copies.
- EditorReducer.Reduce: DELETE_FILE is dispatched to the corrected `EditorReducer.DeleteFile`, which never throws. The code as written throws when the deletion empties the list; see the first finding.
- EditorSession.Invoke: `deleteFile` goes through the corrected DELETE_FILE, so the contract's "only the checked calls can fail" holds of the corrected session. The code as written also throws from `deleteFile` when the deletion empties the file list.
- ProjectStore.OpenProject, ProjectStore.AddFile, ProjectStore.AddAsset, ProjectStore.SetFile, ProjectStore.SetAsset, EditorReducer.OpenProject, Editor.RenameItem: records are modelled as values, and the objects a caller passes in are never updated. The code mutates them. `openProject` renames the snapshot's own records in place (project-context.jsx:164-167), so opening the same object twice translates twice. `addFile`/`addAsset` write the generated id into the caller's record and store that object (lines 41, 48, 119). `setFile`/`setAsset` merge into the stored object in place (lines 63, 134). OPEN_PROJECT writes `editor` and `key` into the payload (editor-provider.js:45-50), and the rename step writes the new name into the caller's `data` (lines 194, 213, 226, 242). Aliasing between caller and store is not modelled.
- Editor.DeleteFile: uses the corrected DELETE_FILE, so it does not throw where the code as written does. Its contract relates it to `EditorReducer.DeleteFileAsWritten`.
- EditorReducer.OpenProject: a payload field that is absent takes its initial value, and that is what `None` models. A field present with the value `null` or `undefined` is not modelled: `Object.assign` copies it over the initial value, so `name`, `assetList` or `fileList` would become null.
- ProjectStore.OpenProject: `maybeTranslate` is not part of this model; it is the function argument `tr`.
- Bundle.Export: asset data that JSZip would reject as base64 is not modelled, and neither is `saveFile` replacing the caller's asset list in place.
- Bundle.ImportAsWritten: a `project.json` that parses to `null` or a non-object is not modelled.
- Bundle.RoundTrip: the archive format requires `import(export(p))` to give back `p` with non-image metadata intact. As written, the code does not. The as-written and corrected behaviours are both modelled; see the second finding.

## Findings

| source | as written | input that shows it | evidently intended | confidence | as-written member | corrected member |
|---|---|---|---|---|---|---|
| src/hooks/editor-provider.js:74-80 | after filtering, `index` is clamped to `fileList.length - 1` and `fileList[index].id` is read unguarded | a session whose only file has id `a`, then DELETE_FILE `a`: the list becomes empty, `index` is -1, and reading `id` of `undefined` throws | the selection becomes null when no file is left | high, not executed | EditorReducer.DeleteFileAsWritten (with EditorReducer.DeleteLastFileThrows) | EditorReducer.DeleteFile (with EditorReducer.DeleteFileSelection) |
| src/lib/project-file.js:9-10, 39-41 | only image assets with data get an `<id>.png` entry, yet opening reads the entry of every asset, and `zip.file(...)` returns null for a missing one | a project with one image asset and one asset without image data (say a sound, or no data): saved, then opened, the lookup of the second asset throws inside the change listener and the promise never settles | every saved project opens again, non-image assets keeping their stored metadata | high, not executed | Bundle.ImportAsWritten (with Bundle.UnwrittenAssetNeverOpens) | Bundle.Import (with Bundle.RoundTrip) |

=== FILE: bundle.dfy ===
/** The project file format (src/lib/project-file.js): a `.bcp` archive holding
    `project.json` and one `<asset id>.png` entry per image asset. The archive
    library, JSON text and base64 are abstracted: the archive is a map from
    entry names to payloads next to the parsed (or unparsable) project record. */
module Bundle {
  import opened Wrappers
  import opened Records

  /** A project record as saved: its name, its asset list (null when absent)
      and every other field. */
  datatype ProjectJson = ProjectJson(name: string, assetList: Option<seq<Item>>, others: Fields)

  /** The `project.json` entry: text that parses to a project, or text that does not. */
  datatype MetaText = Parsed(project: ProjectJson) | Malformed

  /** An archive: the `project.json` entry, if any, and the other entries by name. */
  datatype Archive = Archive(meta: Option<MetaText>, payloads: map<string, Value>)

  /** What saving hands to the download: a file name and an archive. */
  datatype Saved = Saved(fileName: string, archive: Archive)

  /** Opening rejects on unparsable `project.json`; a missing entry throws inside
      the change listener, so the returned promise never settles. */
  datatype OpenError = ParseError | Unsettled

  const DataKey := "data"
  const TypeKey := "type"

  /** The archive entry that holds an asset's payload. */
  function Entry(id: string): (r: string)
    ensures |r| == |id| + 4 && r[..|id|] == id && r[|id|..] == ".png"
  {
    id + ".png"
  }

  /** Distinct ids name distinct entries. */
  lemma EntryInjective(a: string, b: string)
    ensures Entry(a) == Entry(b) <==> a == b
  {
    if Entry(a) == Entry(b) {
      assert |a| == |b|;
      assert a == Entry(a)[..|a|];
      assert b == Entry(b)[..|b|];
    }
  }

  /** The asset carries truthy data. */
  predicate HasData(a: Item) {
    DataKey in a.extra && Truthy(a.extra[DataKey])
  }

  /** Reading `type.startsWith` on an asset with data but no string type throws. */
  predicate TypeFault(a: Item) {
    HasData(a) && !(TypeKey in a.extra && a.extra[TypeKey].Str?)
  }

  /** The asset's data is written to the archive: truthy data and an `image/` type. */
  predicate Emits(a: Item) {
    HasData(a) && TypeKey in a.extra && a.extra[TypeKey].Str?
    && |"image/"| <= |a.extra[TypeKey].s| && a.extra[TypeKey].s[..|"image/"|] == "image/"
  }

  /** The asset as stored in `project.json`: without its data. */
  function Strip(a: Item): (r: Item)
    ensures r.id == a.id && r.name == a.name
    ensures DataKey !in r.extra
    ensures forall k :: k in a.extra && k != DataKey ==> k in r.extra && r.extra[k] == a.extra[k]
    ensures forall k :: k in r.extra ==> k in a.extra
  {
    a.(extra := a.extra - {DataKey})
  }

  /** The asset list as stored in `project.json`. */
  function StripAll(xs: seq<Item>): (ys: seq<Item>)
    ensures |ys| == |xs| && forall i :: 0 <= i < |xs| ==> ys[i] == Strip(xs[i])
  {
    seq(|xs|, i requires 0 <= i < |xs| => Strip(xs[i]))
  }

  /** The payload entries written while mapping over the assets, in order; a
      later asset with the same id overwrites an earlier one. */
  function Payloads(assets: seq<Item>): (m: map<string, Value>)
    ensures forall i :: 0 <= i < |assets| && Emits(assets[i]) ==> Entry(assets[i].id) in m
    ensures forall k :: k in m ==> exists i :: 0 <= i < |assets| && Emits(assets[i]) && Entry(assets[i].id) == k
  {
    if assets == [] then map[]
    else
      var last := assets[|assets| - 1];
      var m0 := Payloads(assets[..|assets| - 1]);
      if Emits(last) then m0[Entry(last.id) := last.extra[DataKey]] else m0
  }

  /** The entry of an emitting asset holds its data when no later asset with the
      same id overwrites it. */
  lemma {:induction false} PayloadIsLastWrite(assets: seq<Item>, i: nat)
    requires i < |assets| && Emits(assets[i])
    requires forall j :: i < j < |assets| && Emits(assets[j]) ==> assets[j].id != assets[i].id
    ensures Payloads(assets)[Entry(assets[i].id)] == assets[i].extra[DataKey]
  {
    var n := |assets| - 1;
    var last := assets[n];
    var init := assets[..n];
    if i < n {
      assert init[i] == assets[i];
      forall j | i < j < |init| && Emits(init[j]) ensures init[j].id != init[i].id {
        assert init[j] == assets[j];
      }
      PayloadIsLastWrite(init, i);
      EntryInjective(last.id, assets[i].id);
    }
  }

  /** `${name || 'project'}.bcp`. */
  function FileName(name: string): (r: string)
    ensures |r| > 4 && r[|r| - 4..] == ".bcp"
    ensures name != "" ==> |r| == |name| + 4 && r[..|name|] == name
    ensures name == "" ==> r == "project.bcp"
  {
    (if name == "" then "project" else name) + ".bcp"
  }

  /** `saveFile`: strips every asset's data into the archive and names the
      file after the project. Fails when an asset with data lacks a string type. */
  function Export(b: ProjectJson): (r: Result<Saved, Fault>)
    ensures r.Failure? <==> b.assetList.Some? && exists i :: 0 <= i < |b.assetList.value| && TypeFault(b.assetList.value[i])
    ensures r.Success? ==> r.value.fileName == FileName(b.name)
    ensures r.Success? && b.assetList.None? ==> r.value.archive == Archive(Some(Parsed(b)), map[])
    ensures r.Success? && b.assetList.Some? ==>
      var xs := b.assetList.value;
      && r.value.archive.payloads == Payloads(xs)
      && r.value.archive.meta.Some? && r.value.archive.meta.value.Parsed?
      && var s := r.value.archive.meta.value.project;
      && s.name == b.name && s.others == b.others
      && s.assetList.Some? && |s.assetList.value| == |xs|
      && forall i :: 0 <= i < |xs| ==> s.assetList.value[i] == Strip(xs[i])
  {
    if b.assetList.None? then Success(Saved(FileName(b.name), Archive(Some(Parsed(b)), map[])))
    else
      var xs := b.assetList.value;
      if exists i :: 0 <= i < |xs| && TypeFault(xs[i]) then Failure(TypeError)
      else
        Success(Saved(FileName(b.name), Archive(Some(Parsed(b.(assetList := Some(StripAll(xs))))), Payloads(xs))))
  }

  /** `{ data, ...asset }`: the payload under `data`, unless the stored record
      has its own `data` field, which wins. */
  function Reattach(a: Item, data: Value): (r: Item)
    ensures r.id == a.id && r.name == a.name
    ensures DataKey in r.extra
    ensures DataKey !in a.extra ==> r.extra[DataKey] == data
    ensures forall k :: k in a.extra ==> k in r.extra && r.extra[k] == a.extra[k]
    ensures forall k :: k in r.extra ==> k == DataKey || k in a.extra
  {
    a.(extra := map[DataKey := data] + a.extra)
  }

  /** Every stored asset with its payload reattached. */
  function ReattachAll(xs: seq<Item>, payloads: map<string, Value>): (zs: seq<Item>)
    requires AllEntries(xs, payloads)
    ensures |zs| == |xs| && forall i :: 0 <= i < |xs| ==> zs[i] == Reattach(xs[i], payloads[Entry(xs[i].id)])
  {
    seq(|xs|, i requires 0 <= i < |xs| => Reattach(xs[i], payloads[Entry(xs[i].id)]))
  }

  /** Every stored asset finds its entry. */
  predicate AllEntries(xs: seq<Item>, payloads: map<string, Value>) {
    forall i :: 0 <= i < |xs| ==> Entry(xs[i].id) in payloads
  }

  /** `openFile` once a file was chosen, as written: parses `project.json` and
      gives every stored asset back its payload; an asset without an entry
      makes the lookup throw, so the open never settles. */
  function ImportAsWritten(a: Archive): (r: Result<ProjectJson, OpenError>)
    ensures a.meta.None? ==> r == Failure(Unsettled)
    ensures r == Failure(ParseError) <==> a.meta == Some(Malformed)
    ensures a.meta.Some? && a.meta.value.Parsed? && a.meta.value.project.assetList.None? ==>
      r == Success(a.meta.value.project)
    ensures a.meta.Some? && a.meta.value.Parsed? && a.meta.value.project.assetList.Some? ==>
      var b := a.meta.value.project;
      var xs := b.assetList.value;
      && (r.Success? <==> AllEntries(xs, a.payloads))
      && (r.Success? ==>
        && r.value.name == b.name && r.value.others == b.others
        && r.value.assetList.Some? && |r.value.assetList.value| == |xs|
        && forall i :: 0 <= i < |xs| ==> r.value.assetList.value[i] == Reattach(xs[i], a.payloads[Entry(xs[i].id)]))
      && (r.Failure? ==> r.error == Unsettled)
  {
    match a.meta
    case None => Failure(Unsettled)
    case Some(Malformed) => Failure(ParseError)
    case Some(Parsed(b)) =>
      if b.assetList.None? then Success(b)
      else
        var xs := b.assetList.value;
        if !AllEntries(xs, a.payloads) then Failure(Unsettled)
        else Success(b.(assetList := Some(ReattachAll(xs, a.payloads))))
  }

  /** An asset whose data is written to the archive: stripping then
      reattaching gives it back. */
  lemma ReattachStripped(a: Item)
    requires Emits(a)
    ensures Reattach(Strip(a), a.extra[DataKey]) == a
  {
    var e := Reattach(Strip(a), a.extra[DataKey]).extra;
    assert e.Keys == a.extra.Keys;
  }

  /** One image asset comes back from its stripped record and its entry. */
  lemma StripReattachAt(xs: seq<Item>, i: nat)
    requires DistinctIds(xs) && i < |xs| && Emits(xs[i])
    ensures Entry(xs[i].id) in Payloads(xs)
    ensures Reattach(Strip(xs[i]), Payloads(xs)[Entry(xs[i].id)]) == xs[i]
  {
    PayloadIsLastWrite(xs, i);
    ReattachStripped(xs[i]);
  }

  /** Every stored asset of an image-only list finds its entry. */
  lemma StrippedEntries(xs: seq<Item>)
    requires DistinctIds(xs)
    requires forall i :: 0 <= i < |xs| ==> Emits(xs[i])
    ensures AllEntries(StripAll(xs), Payloads(xs))
  {
    var ys := StripAll(xs);
    forall i | 0 <= i < |ys| ensures Entry(ys[i].id) in Payloads(xs) {
      StripReattachAt(xs, i);
    }
  }

  /** The asset list: stripping, writing the payloads and reattaching them
      gives every image asset back, provided the ids are distinct. */
  lemma StripReattach(xs: seq<Item>)
    requires DistinctIds(xs)
    requires forall i :: 0 <= i < |xs| ==> Emits(xs[i])
    ensures AllEntries(StripAll(xs), Payloads(xs))
    ensures ReattachAll(StripAll(xs), Payloads(xs)) == xs
  {
    StrippedEntries(xs);
    var ys := StripAll(xs);
    var m := Payloads(xs);
    var zs := ReattachAll(ys, m);
    forall i | 0 <= i < |xs| ensures zs[i] == xs[i] {
      StripReattachAt(xs, i);
      assert zs[i] == Reattach(Strip(xs[i]), m[Entry(xs[i].id)]);
    }
  }

  /** Round trip as written: a project whose assets all carry image data under
      distinct ids opens to exactly the project that was saved. */
  lemma ImageRoundTripAsWritten(b: ProjectJson)
    requires b.assetList.Some? ==> DistinctIds(b.assetList.value)
    requires b.assetList.Some? ==> forall i :: 0 <= i < |b.assetList.value| ==> Emits(b.assetList.value[i])
    ensures Export(b).Success?
    ensures ImportAsWritten(Export(b).value.archive) == Success(b)
  {
    if b.assetList.Some? {
      var xs := b.assetList.value;
      assert forall i :: 0 <= i < |xs| ==> !TypeFault(xs[i]);
      StripReattach(xs);
      assert Export(b) == Success(Saved(FileName(b.name), Archive(Some(Parsed(b.(assetList := Some(StripAll(xs))))), Payloads(xs))));
    }
  }

  /** Opening a saved project never settles when one of its assets had no
      image data under an id that no image asset shares: no entry was
      written for it. */
  lemma {:induction false} UnwrittenAssetNeverOpens(b: ProjectJson, i: nat)
    requires b.assetList.Some? && i < |b.assetList.value|
    requires Export(b).Success?
    requires forall j :: 0 <= j < |b.assetList.value| && Emits(b.assetList.value[j]) ==>
      b.assetList.value[j].id != b.assetList.value[i].id
    ensures ImportAsWritten(Export(b).value.archive) == Failure(Unsettled)
  {
    var xs := b.assetList.value;
    var s := Export(b).value.archive;
    var ys := s.meta.value.project.assetList.value;
    assert ys[i] == Strip(xs[i]);
    forall j | 0 <= j < |xs| && Emits(xs[j])
      ensures Entry(xs[j].id) != Entry(xs[i].id)
    {
      EntryInjective(xs[j].id, xs[i].id);
    }
    assert !AllEntries(ys, s.payloads);
  }

  /** Every stored asset, given back its payload when its entry exists and
      left as stored otherwise. */
  function RestoreAll(xs: seq<Item>, payloads: map<string, Value>): (zs: seq<Item>)
    ensures |zs| == |xs|
    ensures forall i :: 0 <= i < |xs| && Entry(xs[i].id) in payloads ==> zs[i] == Reattach(xs[i], payloads[Entry(xs[i].id)])
    ensures forall i :: 0 <= i < |xs| && Entry(xs[i].id) !in payloads ==> zs[i] == xs[i]
  {
    seq(|xs|, i requires 0 <= i < |xs| =>
      if Entry(xs[i].id) in payloads then Reattach(xs[i], payloads[Entry(xs[i].id)]) else xs[i])
  }

  /** Opening as evidently intended: an asset whose data was never written
      (no image) keeps its stored record instead of aborting the open. */
  function Import(a: Archive): (r: Result<ProjectJson, OpenError>)
    ensures a.meta.None? ==> r == Failure(Unsettled)
    ensures r == Failure(ParseError) <==> a.meta == Some(Malformed)
    ensures a.meta.Some? && a.meta.value.Parsed? ==> r.Success?
    ensures a.meta.Some? && a.meta.value.Parsed? && a.meta.value.project.assetList.None? ==>
      r == Success(a.meta.value.project)
    ensures a.meta.Some? && a.meta.value.Parsed? && a.meta.value.project.assetList.Some? ==>
      var b := a.meta.value.project;
      var xs := b.assetList.value;
      && r.value.name == b.name && r.value.others == b.others
      && r.value.assetList.Some? && |r.value.assetList.value| == |xs|
      && (forall i :: 0 <= i < |xs| && Entry(xs[i].id) in a.payloads ==>
            r.value.assetList.value[i] == Reattach(xs[i], a.payloads[Entry(xs[i].id)]))
      && (forall i :: 0 <= i < |xs| && Entry(xs[i].id) !in a.payloads ==>
            r.value.assetList.value[i] == xs[i])
  {
    match a.meta
    case None => Failure(Unsettled)
    case Some(Malformed) => Failure(ParseError)
    case Some(Parsed(b)) =>
      if b.assetList.None? then Success(b)
      else Success(b.(assetList := Some(RestoreAll(b.assetList.value, a.payloads))))
  }

  /** Both openers agree whenever every stored asset has its entry. */
  lemma ImportAgrees(a: Archive)
    requires a.meta.Some? && a.meta.value.Parsed? && a.meta.value.project.assetList.Some?
    requires AllEntries(a.meta.value.project.assetList.value, a.payloads)
    ensures Import(a) == ImportAsWritten(a)
  {
    var xs := a.meta.value.project.assetList.value;
    assert RestoreAll(xs, a.payloads) == ReattachAll(xs, a.payloads);
  }

  /** No entry is written for an asset without image data when no image asset shares its id. */
  lemma NoEntryAt(xs: seq<Item>, i: nat)
    requires DistinctIds(xs) && i < |xs| && !Emits(xs[i])
    ensures Entry(xs[i].id) !in Payloads(xs)
  {
    forall j | 0 <= j < |xs| && Emits(xs[j])
      ensures Entry(xs[j].id) != Entry(xs[i].id)
    {
      assert j != i && xs[j].id != xs[i].id;
      EntryInjective(xs[j].id, xs[i].id);
    }
  }

  /** One asset after saving and opening: an image asset comes back whole,
      any other asset comes back without its data. */
  lemma RestoreAt(xs: seq<Item>, i: nat)
    requires DistinctIds(xs) && i < |xs|
    ensures RestoreAll(StripAll(xs), Payloads(xs))[i] == if Emits(xs[i]) then xs[i] else Strip(xs[i])
  {
    var ys := StripAll(xs);
    assert ys[i] == Strip(xs[i]);
    if Emits(xs[i]) {
      StripReattachAt(xs, i);
    } else {
      NoEntryAt(xs, i);
    }
  }

  /** Round trip: saving then opening a project with distinct asset ids gives
      back its name, its other fields and every asset in order; image assets
      whole, other assets with their metadata but without their data, which
      is never written. */
  lemma RoundTrip(b: ProjectJson)
    requires b.assetList.Some? ==> DistinctIds(b.assetList.value)
    requires Export(b).Success?
    ensures Import(Export(b).value.archive).Success?
    ensures b.assetList.None? ==> Import(Export(b).value.archive) == Success(b)
    ensures b.assetList.Some? ==>
      var r := Import(Export(b).value.archive).value;
      var xs := b.assetList.value;
      && r.name == b.name && r.others == b.others
      && r.assetList.Some? && |r.assetList.value| == |xs|
      && forall i :: 0 <= i < |xs| ==>
           r.assetList.value[i] == if Emits(xs[i]) then xs[i] else Strip(xs[i])
  {
    if b.assetList.Some? {
      var xs := b.assetList.value;
      var zs := RestoreAll(StripAll(xs), Payloads(xs));
      assert Import(Export(b).value.archive).value.assetList == Some(zs);
      forall i | 0 <= i < |xs| ensures zs[i] == if Emits(xs[i]) then xs[i] else Strip(xs[i]) {
        RestoreAt(xs, i);
      }
    }
  }
}

=== FILE: editor.dfy ===
/** The in-memory operations of `useEditor` (src/hooks/editor-provider.js):
    existence checks and name-collision resolution in front of the reducer. A
    check that fails throws before anything is dispatched, so a `Failure`
    leaves the session as it was. */
module Editor {
  import opened Wrappers
  import opened Records
  import opened Naming
  import A = EditorActions
  import R = EditorReducer

  datatype EditorError = FileAlreadyExists | FileNotFound | AssetAlreadyExists | AssetNotFound

  /** `if (data.name) data.name = autoRename(items, data.name)` on a full record. */
  function RenameItem(items: seq<Item>, data: Item): (r: Item)
    ensures r.id == data.id && r.extra == data.extra
    ensures data.name == "" ==> r.name == ""
    ensures data.name != "" ==> !NameTaken(items, r.name)
    ensures data.name != "" ==> r.name == AutoRename(items, data.name)
  {
    if data.name != "" then data.(name := AutoRename(items, data.name)) else data
  }

  /** The same on a partial record: only a given, non-empty name is resolved. */
  function RenamePatch(items: seq<Item>, p: Patch): (r: Patch)
    ensures r.id == p.id && r.extra == p.extra && r.name.Some? == p.name.Some?
    ensures Given(p.name) ==> !NameTaken(items, r.name.value)
    ensures Given(p.name) ==> r.name == Some(AutoRename(items, p.name.value))
    ensures !Given(p.name) ==> r.name == p.name
  {
    if Given(p.name) then p.(name := Some(AutoRename(items, p.name.value))) else p
  }

  /** `addFile`: throws when a file with the same id exists; otherwise appends
      the file, its name resolved against the existing files, selects it and
      marks the session modified. */
  function AddFile(s: R.EditorState, data: Item): (r: Result<R.EditorState, EditorError>)
    ensures r.Failure? <==> HasId(s.fileList, data.id)
    ensures r.Failure? ==> r.error == FileAlreadyExists
    ensures r.Success? ==>
      && r.value == s.(fileList := r.value.fileList, selectedFileId := Some(data.id), modified := true)
      && |r.value.fileList| == |s.fileList| + 1
      && r.value.fileList[..|s.fileList|] == s.fileList
      && r.value.fileList[|s.fileList|] == RenameItem(s.fileList, data)
  {
    if HasId(s.fileList, data.id) then Failure(FileAlreadyExists)
    else
      var f := RenameItem(s.fileList, data);
      var r := R.Reduce(s, A.AddFile(f));
      assert r.fileList == s.fileList + [f];
      Success(r)
  }

  /** `openFile`: throws for an unknown id; otherwise selects the file and
      changes nothing else, not even the modified flag. */
  function OpenFile(s: R.EditorState, id: string): (r: Result<R.EditorState, EditorError>)
    ensures r.Failure? <==> !HasId(s.fileList, id)
    ensures r.Failure? ==> r.error == FileNotFound
    ensures r.Success? ==> r.value == s.(selectedFileId := Some(id))
  {
    if FindIndex(s.fileList, id) == -1 then Failure(FileNotFound)
    else Success(R.Reduce(s, A.OpenFile(Some(id))))
  }

  /** `deleteFile`: dispatches DELETE_FILE unchecked, with the reducer's
      corrected DELETE_FILE. Wherever the code as written does not throw the
      two agree; where it throws (the deletion empties the list) the corrected
      one leaves an empty session with nothing selected. The remaining files
      keep distinct ids, and a selection is left exactly when a file is left. */
  function DeleteFile(s: R.EditorState, id: string): (r: R.EditorState)
    ensures R.DeleteFileAsWritten(s, id).Success? ==> r == R.DeleteFileAsWritten(s, id).value
    ensures R.DeleteFileAsWritten(s, id).Failure? ==> r.fileList == [] && r.selectedFileId.None? && r.modified
    ensures DistinctIds(s.fileList) ==> DistinctIds(r.fileList)
    ensures HasId(s.fileList, id) ==> (r.selectedFileId.Some? <==> |r.fileList| > 0)
    ensures r.selectedFileId.Some? && r.selectedFileId != s.selectedFileId ==>
      HasId(r.fileList, r.selectedFileId.value)
  {
    DistinctAfterReject(s.fileList, [id]);
    R.Reduce(s, A.DeleteFile(id))
  }

  /** `modifyFile`: throws when no file matches the payload's id (or, without an
      id, the selection); otherwise resolves a given name against all files and
      merges the payload into the matching file(s). */
  function ModifyFile(s: R.EditorState, data: Patch): (r: Result<R.EditorState, EditorError>)
    ensures r.Failure? <==> !(R.FileTarget(s, data).Some? && HasId(s.fileList, R.FileTarget(s, data).value))
    ensures r.Failure? ==> r.error == FileNotFound
    ensures r.Success? ==> r.value == R.ModifyFile(s, RenamePatch(s.fileList, data))
  {
    var target := R.FileTarget(s, data);
    if target.Some? && HasId(s.fileList, target.value) then
      var p := RenamePatch(s.fileList, data);
      R.ReduceModifyFile(s, p);
      Success(R.Reduce(s, A.ModifyFile(p)))
    else
      Failure(FileNotFound)
  }

  /** `addAsset`: throws when an asset with the same id exists; otherwise
      appends the asset, its name resolved against the existing assets, and
      leaves the file selection alone. */
  function AddAsset(s: R.EditorState, data: Item): (r: Result<R.EditorState, EditorError>)
    ensures r.Failure? <==> HasId(s.assetList, data.id)
    ensures r.Failure? ==> r.error == AssetAlreadyExists
    ensures r.Success? ==>
      && r.value == s.(assetList := r.value.assetList, modified := true)
      && |r.value.assetList| == |s.assetList| + 1
      && r.value.assetList[..|s.assetList|] == s.assetList
      && r.value.assetList[|s.assetList|] == RenameItem(s.assetList, data)
  {
    if HasId(s.assetList, data.id) then Failure(AssetAlreadyExists)
    else
      var x := RenameItem(s.assetList, data);
      var r := R.Reduce(s, A.AddAsset(x));
      assert r.assetList == s.assetList + [x];
      Success(r)
  }

  /** An argument of the variadic `deleteAsset(...assetIds)`. */
  datatype DeleteArg = One(id: string) | Many(ids: seq<string>)

  /** The batch `deleteAsset` dispatches: a leading array argument replaces
      the argument list; otherwise the ids given one by one (an array in a later
      position compares equal to no id, so it contributes none). */
  function Batch(args: seq<DeleteArg>): (ids: seq<string>)
    ensures |args| > 0 && args[0].Many? ==> ids == args[0].ids
    ensures !(|args| > 0 && args[0].Many?) ==> forall x :: x in ids <==> One(x) in args
  {
    if |args| > 0 && args[0].Many? then args[0].ids else Singles(args)
  }

  function Singles(args: seq<DeleteArg>): (ids: seq<string>)
    ensures forall x :: x in ids <==> One(x) in args
  {
    if |args| == 0 then []
    else (if args[0].One? then [args[0].id] else []) + Singles(args[1..])
  }

  /** `deleteAsset`: removes every asset whose id is in the batch, keeping the
      others in order; never throws. */
  function DeleteAsset(s: R.EditorState, args: seq<DeleteArg>): (r: R.EditorState)
    ensures r == s.(assetList := r.assetList, modified := true)
    ensures forall x :: x in r.assetList <==> x in s.assetList && x.id !in Batch(args)
    ensures r.assetList == Reject(s.assetList, Batch(args))
  {
    R.Reduce(s, A.DeleteAsset(Batch(args)))
  }

  /** `modifyAsset`: throws when no asset carries the payload's id (a payload
      without an id matches none); otherwise resolves a given name against all
      assets and merges the payload into the matching asset(s). */
  function ModifyAsset(s: R.EditorState, data: Patch): (r: Result<R.EditorState, EditorError>)
    ensures r.Failure? <==> !(data.id.Some? && HasId(s.assetList, data.id.value))
    ensures r.Failure? ==> r.error == AssetNotFound
    ensures r.Success? ==> r.value == R.ModifyAsset(s, RenamePatch(s.assetList, data))
  {
    if data.id.Some? && HasId(s.assetList, data.id.value) then
      var p := RenamePatch(s.assetList, data);
      R.ReduceModifyAsset(s, p);
      Success(R.Reduce(s, A.ModifyAsset(p)))
    else
      Failure(AssetNotFound)
  }
}

/** The `useEditor` surface as one closed set of calls, and the session
    invariant every call keeps. */
module EditorSession {
  import opened Wrappers
  import opened Records
  import A = EditorActions
  import R = EditorReducer
  import E = Editor

  datatype Call =
    | CloseProject
    | SetProjectName(name: string)
    | AddFile(file: Item)
    | OpenFile(id: string)
    | DeleteFile(id: string)
    | ModifyFile(patch: Patch)
    | AddAsset(asset: Item)
    | DeleteAsset(args: seq<E.DeleteArg>)
    | ModifyAsset(patch: Patch)
    | SetDevice(device: Option<Fields>)
    | SetEditor(config: Fields)
    | SetModified(modified: bool)

  /** One `useEditor` call on the session: the checked calls may fail, and every
      other call succeeds. */
  function Invoke(s: R.EditorState, c: Call): (r: Result<R.EditorState, E.EditorError>)
    ensures r.Failure? ==> c.AddFile? || c.OpenFile? || c.ModifyFile? || c.AddAsset? || c.ModifyAsset?
    ensures c.CloseProject? ==> r == Success(R.Initial)
    ensures c.SetModified? ==> r == Success(s.(modified := c.modified))
  {
    match c
    case CloseProject => Success(R.Reduce(s, A.CloseProject))
    case SetProjectName(name) => Success(R.Reduce(s, A.SetProjectName(name)))
    case AddFile(f) => E.AddFile(s, f)
    case OpenFile(id) => E.OpenFile(s, id)
    case DeleteFile(id) => Success(E.DeleteFile(s, id))
    case ModifyFile(p) => E.ModifyFile(s, p)
    case AddAsset(x) => E.AddAsset(s, x)
    case DeleteAsset(args) => Success(E.DeleteAsset(s, args))
    case ModifyAsset(p) => E.ModifyAsset(s, p)
    case SetDevice(d) => Success(R.Reduce(s, A.ConnectDevice(d)))
    case SetEditor(config) => Success(R.Reduce(s, A.ConfigEditor(config)))
    case SetModified(m) => Success(R.Reduce(s, A.SaveData(None, m)))
  }

  /** File ids and asset ids are distinct, and the selection names an existing file. */
  predicate Valid(s: R.EditorState) {
    && DistinctIds(s.fileList)
    && DistinctIds(s.assetList)
    && (s.selectedFileId.Some? ==> HasId(s.fileList, s.selectedFileId.value))
  }

  /** Every call keeps the invariant; the one exception is a file modification
      whose payload carries an empty id, which is merged into the selected file
      and so renames it to the empty id. */
  lemma InvokeKeepsValid(s: R.EditorState, c: Call)
    requires Valid(s)
    requires (c.ModifyFile? || c.ModifyAsset?) ==> Canonical(c.patch)
    requires !(c.ModifyFile? && c.patch.id == Some(""))
    ensures Invoke(s, c).Success? ==> Valid(Invoke(s, c).value)
  {
    match c
    case AddFile(_) => AddFileKeepsValid(s, c);
    case AddAsset(_) => AddAssetKeepsValid(s, c);
    case DeleteFile(_) => DeleteFileKeepsValid(s, c);
    case DeleteAsset(_) => DeleteAssetKeepsValid(s, c);
    case ModifyFile(_) => ModifyFileKeepsValid(s, c);
    case ModifyAsset(_) => ModifyAssetKeepsValid(s, c);
    case OpenFile(_) => OpenFileKeepsValid(s, c);
    case _ => UncheckedCallKeepsValid(s, c);
  }

  lemma OpenFileKeepsValid(s: R.EditorState, c: Call)
    requires Valid(s) && c.OpenFile?
    ensures Invoke(s, c).Success? ==> Valid(Invoke(s, c).value)
  {
    assert Invoke(s, c) == E.OpenFile(s, c.id);
  }

  /** The calls that touch neither list nor selection keep the invariant. */
  lemma UncheckedCallKeepsValid(s: R.EditorState, c: Call)
    requires Valid(s)
    requires c.CloseProject? || c.SetProjectName? || c.SetDevice? || c.SetEditor? || c.SetModified?
    ensures Invoke(s, c).Success? && Valid(Invoke(s, c).value)
  {
  }

  lemma AddFileKeepsValid(s: R.EditorState, c: Call)
    requires Valid(s) && c.AddFile?
    ensures Invoke(s, c).Success? ==> Valid(Invoke(s, c).value)
  {
    var r := E.AddFile(s, c.file);
    assert Invoke(s, c) == r;
    if r.Success? {
      AppendKeepsDistinct(s.fileList, E.RenameItem(s.fileList, c.file));
      assert r.value.fileList[|s.fileList|].id == c.file.id;
    }
  }

  lemma AddAssetKeepsValid(s: R.EditorState, c: Call)
    requires Valid(s) && c.AddAsset?
    ensures Invoke(s, c).Success? ==> Valid(Invoke(s, c).value)
  {
    var r := E.AddAsset(s, c.asset);
    assert Invoke(s, c) == r;
    if r.Success? {
      AppendKeepsDistinct(s.assetList, E.RenameItem(s.assetList, c.asset));
    }
  }

  lemma DeleteFileKeepsValid(s: R.EditorState, c: Call)
    requires Valid(s) && c.DeleteFile?
    ensures Invoke(s, c).Success? ==> Valid(Invoke(s, c).value)
  {
    var r := E.DeleteFile(s, c.id);
    assert Invoke(s, c) == Success(r);
    assert r == R.DeleteFile(s, c.id);
  }

  lemma DeleteAssetKeepsValid(s: R.EditorState, c: Call)
    requires Valid(s) && c.DeleteAsset?
    ensures Invoke(s, c).Success? ==> Valid(Invoke(s, c).value)
  {
    var r := E.DeleteAsset(s, c.args);
    assert Invoke(s, c) == Success(r);
    assert r.assetList == Reject(s.assetList, E.Batch(c.args));
    RejectKeepsDistinct(s.assetList, E.Batch(c.args));
  }

  lemma ModifyFileKeepsValid(s: R.EditorState, c: Call)
    requires Valid(s) && c.ModifyFile? && Canonical(c.patch) && c.patch.id != Some("")
    ensures Invoke(s, c).Success? ==> Valid(Invoke(s, c).value)
  {
    var p := c.patch;
    var r := E.ModifyFile(s, p);
    assert Invoke(s, c) == r;
    if r.Success? {
      R.ModifyFileKeepsIds(s, E.RenamePatch(s.fileList, p));
      SameIds(s.fileList, r.value.fileList, s.selectedFileId);
    }
  }

  lemma ModifyAssetKeepsValid(s: R.EditorState, c: Call)
    requires Valid(s) && c.ModifyAsset? && Canonical(c.patch)
    ensures Invoke(s, c).Success? ==> Valid(Invoke(s, c).value)
  {
    var r := E.ModifyAsset(s, c.patch);
    assert Invoke(s, c) == r;
    if r.Success? {
      SameIds(s.assetList, r.value.assetList, None);
    }
  }

  lemma AppendKeepsDistinct(items: seq<Item>, it: Item)
    requires DistinctIds(items) && !HasId(items, it.id)
    ensures DistinctIds(items + [it])
  {
    var r := items + [it];
    forall i, j | 0 <= i < j < |r| ensures r[i].id != r[j].id {
      if j == |items| {
        assert r[i] == items[i];
      } else {
        assert r[i] == items[i] && r[j] == items[j];
      }
    }
  }

  /** Two lists with the same ids position by position share distinctness and membership. */
  lemma SameIds(items: seq<Item>, r: seq<Item>, sel: Option<string>)
    requires |r| == |items| && forall i :: 0 <= i < |items| ==> r[i].id == items[i].id
    requires DistinctIds(items)
    requires sel.Some? ==> HasId(items, sel.value)
    ensures DistinctIds(r)
    ensures sel.Some? ==> HasId(r, sel.value)
  {
    if sel.Some? {
      var i :| 0 <= i < |items| && items[i].id == sel.value;
      assert r[i].id == sel.value;
    }
  }
}

=== FILE: editor_reducer.dfy ===
/** The actions of the editor session store (src/hooks/editor-provider.js). */
module EditorActions {
  import opened Wrappers
  import opened Records

  /** The payload of OPEN_PROJECT: a partial session. `None` stands for a field
      the payload omits; a field given as `null` is not represented. */
  datatype OpenPayload = OpenPayload(
    key: Option<string>,
    name: Option<string>,
    editor: Option<Fields>,
    assetList: Option<seq<Item>>,
    fileList: Option<seq<Item>>,
    selectedFileId: Option<string>,
    device: Option<Fields>,
    modified: Option<bool>)

  /** The closed set of actions the reducer understands. `now` in OpenProject is
      the clock reading `Date.now().toString(36)` taken while reducing. */
  datatype Action =
    | CloseProject
    | OpenProject(payload: OpenPayload, now: string)
    | SetProjectName(name: string)
    | AddFile(file: Item)
    | OpenFile(selection: Option<string>)
    | DeleteFile(id: string)
    | ModifyFile(patch: Patch)
    | AddAsset(asset: Item)
    | DeleteAsset(ids: seq<string>)
    | ModifyAsset(patch: Patch)
    | ConnectDevice(device: Option<Fields>)
    | ConfigEditor(config: Fields)
    | SaveData(key: Option<string>, modified: bool)
}

/** The editor session state and its reducer: a pure function from a state and
    an action to the next state. */
module EditorReducer {
  import opened Wrappers
  import opened Records
  import A = EditorActions

  datatype EditorState = EditorState(
    key: Option<string>,
    name: string,
    editor: Option<Fields>,
    assetList: seq<Item>,
    fileList: seq<Item>,
    selectedFileId: Option<string>,
    device: Option<Fields>,
    modified: bool)

  /** `initialState`. */
  const Initial := EditorState(None, "", None, [], [], None, None, false)

  /** OPEN_PROJECT: every field the payload gives, the initial value for every
      field it omits, except that a missing editor is inherited from the current
      state and a missing key is synthesised from the clock. */
  function OpenProject(s: EditorState, p: A.OpenPayload, now: string): (r: EditorState)
    ensures r.editor == if p.editor.Some? then p.editor else s.editor
    ensures r.key == if Given(p.key) then p.key else Some(now)
    ensures p.name.None? ==> r.name == Initial.name
    ensures p.name.Some? ==> r.name == p.name.value
    ensures p.fileList.None? ==> r.fileList == Initial.fileList
    ensures p.fileList.Some? ==> r.fileList == p.fileList.value
    ensures p.assetList.None? ==> r.assetList == Initial.assetList
    ensures p.assetList.Some? ==> r.assetList == p.assetList.value
    ensures r.selectedFileId == p.selectedFileId && r.device == p.device
    ensures r.modified == (p.modified == Some(true))
  {
    EditorState(
      if Given(p.key) then p.key else Some(now),
      p.name.GetOr(Initial.name),
      if p.editor.Some? then p.editor else s.editor,
      p.assetList.GetOr(Initial.assetList),
      p.fileList.GetOr(Initial.fileList),
      p.selectedFileId,
      p.device,
      p.modified.GetOr(Initial.modified))
  }

  /** The state before OPEN_PROJECT matters only through its editor. */
  lemma OpenProjectForgetsState(s: EditorState, t: EditorState, p: A.OpenPayload, now: string)
    requires s.editor == t.editor
    ensures OpenProject(s, p, now) == OpenProject(t, p, now)
  {
  }

  /** ADD_FILE / ADD_ASSET append the record at the end. */
  function Append(items: seq<Item>, it: Item): (r: seq<Item>)
    ensures |r| == |items| + 1 && r[..|items|] == items && r[|items|] == it
  {
    items + [it]
  }

  /** The file MODIFY_FILE targets: the payload's id when it is given (non-empty),
      the selected file otherwise. */
  function FileTarget(s: EditorState, p: Patch): Option<string> {
    if Given(p.id) then p.id else s.selectedFileId
  }

  /** DELETE_FILE exactly as written: when removing the file empties the list,
      `fileList[index]` is undefined and reading its `id` throws. */
  function DeleteFileAsWritten(s: EditorState, id: string): (r: Result<EditorState, Fault>)
    ensures r.Failure? <==> HasId(s.fileList, id) && Reject(s.fileList, [id]) == []
    ensures r.Success? ==> r.value == DeleteFile(s, id)
  {
    var index := FindIndex(s.fileList, id);
    if index == -1 then Success(s)
    else
      var fileList := Reject(s.fileList, [id]);
      var index := if index >= |fileList| then |fileList| - 1 else index;
      if index < 0 then Failure(TypeError)
      else Success(s.(fileList := fileList, selectedFileId := Some(fileList[index].id), modified := true))
  }

  /** Deleting the only file (or every file carrying the id) throws. */
  lemma DeleteLastFileThrows(s: EditorState, f: Item)
    requires s.fileList == [f]
    ensures DeleteFileAsWritten(s, f.id).Failure?
  {
    assert HasId(s.fileList, f.id) by { assert s.fileList[0].id == f.id; }
    assert Reject([f], [f.id]) == [] by { assert [f][1..] == []; }
  }

  /** DELETE_FILE, corrected: an unknown id changes nothing; otherwise the file
      is removed, the selection moves to the file now at the deleted position,
      or to the last file when the deleted one was last, and to nothing when no
      file is left. This happens whether or not the deleted file was selected. */
  function DeleteFile(s: EditorState, id: string): (r: EditorState)
    ensures !HasId(s.fileList, id) ==> r == s
    ensures HasId(s.fileList, id) ==>
      && r == s.(fileList := Reject(s.fileList, [id]), selectedFileId := r.selectedFileId, modified := true)
      && (|r.fileList| == 0 ==> r.selectedFileId.None?)
      && (0 < |r.fileList| ==> r.selectedFileId.Some? && HasId(r.fileList, r.selectedFileId.value))
  {
    var index := FindIndex(s.fileList, id);
    if index == -1 then s
    else
      var fileList := Reject(s.fileList, [id]);
      var index := if index >= |fileList| then |fileList| - 1 else index;
      var selected := if index < 0 then None else Some(fileList[index].id);
      assert index >= 0 ==> fileList[index].id == selected.value;
      s.(fileList := fileList, selectedFileId := selected, modified := true)
  }

  /** With distinct ids, DELETE_FILE removes exactly the one file and selects its
      successor in the old list, else its predecessor, else nothing. */
  lemma DeleteFileSelection(s: EditorState, id: string)
    requires DistinctIds(s.fileList) && HasId(s.fileList, id)
    ensures var k := FindIndex(s.fileList, id);
      var r := DeleteFile(s, id);
      && r.fileList == s.fileList[..k] + s.fileList[k + 1..]
      && r.selectedFileId ==
           if k + 1 < |s.fileList| then Some(s.fileList[k + 1].id)
           else if 0 < k then Some(s.fileList[k - 1].id)
           else None
  {
    var k := FindIndex(s.fileList, id);
    RejectOne(s.fileList, id);
    var rest := s.fileList[..k] + s.fileList[k + 1..];
    assert k < |rest| ==> rest[k] == s.fileList[k + 1];
    assert k == |rest| && 0 < k ==> rest[k - 1] == s.fileList[k - 1];
  }

  /** MODIFY_FILE: the targeted file(s) take the payload's fields; length, order
      and every other file stay as they were. */
  function ModifyFile(s: EditorState, p: Patch): (r: EditorState)
    ensures r == s.(fileList := r.fileList, modified := true)
    ensures |r.fileList| == |s.fileList|
    ensures forall i :: 0 <= i < |s.fileList| && Some(s.fileList[i].id) != FileTarget(s, p) ==>
      r.fileList[i] == s.fileList[i]
    ensures forall i :: 0 <= i < |s.fileList| && Some(s.fileList[i].id) == FileTarget(s, p) ==>
      r.fileList[i] == Merge(s.fileList[i], p)
  {
    s.(fileList := MergeWhere(s.fileList, FileTarget(s, p), p), modified := true)
  }

  /** MODIFY_FILE keeps every file's id unless the payload carries an empty id
      (which does not select by id, yet is merged into the selected file). */
  lemma ModifyFileKeepsIds(s: EditorState, p: Patch)
    requires Canonical(p) && p.id != Some("")
    ensures forall i :: 0 <= i < |s.fileList| ==> ModifyFile(s, p).fileList[i].id == s.fileList[i].id
  {
  }

  /** MODIFY_ASSET: the assets whose id equals the payload's id take its
      fields; a payload without an id matches nothing. */
  function ModifyAsset(s: EditorState, p: Patch): (r: EditorState)
    ensures r == s.(assetList := r.assetList, modified := true)
    ensures |r.assetList| == |s.assetList|
    ensures forall i :: 0 <= i < |s.assetList| ==>
      r.assetList[i] == if Some(s.assetList[i].id) == p.id then Merge(s.assetList[i], p) else s.assetList[i]
    ensures forall i :: 0 <= i < |s.assetList| ==> r.assetList[i].id == s.assetList[i].id
  {
    s.(assetList := MergeWhere(s.assetList, p.id, p), modified := true)
  }

  /** DELETE_ASSET: keeps exactly the assets whose id is not in the batch, in order. */
  function DeleteAssets(s: EditorState, ids: seq<string>): (r: EditorState)
    ensures r == s.(assetList := r.assetList, modified := true)
    ensures forall x :: x in r.assetList <==> x in s.assetList && x.id !in ids
    ensures r.assetList == Reject(s.assetList, ids)
  {
    s.(assetList := Reject(s.assetList, ids), modified := true)
  }

  /** CONFIG_EDITOR: merges the configuration into the editor record (an absent
      editor counts as an empty one). */
  function ConfigEditor(s: EditorState, config: Fields): (r: EditorState)
    ensures r == s.(editor := r.editor, modified := true)
    ensures r.editor.Some? && r.editor.value.Keys == config.Keys + (if s.editor.Some? then s.editor.value.Keys else {})
    ensures forall k :: k in config ==> r.editor.value[k] == config[k]
    ensures s.editor.Some? ==> forall k :: k in s.editor.value && k !in config ==> r.editor.value[k] == s.editor.value[k]
  {
    s.(editor := Some(s.editor.GetOr(map[]) + config), modified := true)
  }

  /** The reducer. */
  function Reduce(s: EditorState, a: A.Action): (r: EditorState)
    // the dirty flag: set by every editing action, untouched by selection and
    // device changes, cleared by closing, and written only by SAVE_DATA and
    // OPEN_PROJECT otherwise
    ensures a.CloseProject? ==> !r.modified
    ensures a.OpenProject? ==> r.modified == (a.payload.modified == Some(true))
    ensures (|| a.SetProjectName? || a.AddFile? || a.ModifyFile? || a.AddAsset?
             || a.DeleteAsset? || a.ModifyAsset? || a.ConfigEditor?) ==> r.modified
    ensures a.DeleteFile? ==> r.modified == (s.modified || HasId(s.fileList, a.id))
    ensures a.OpenFile? ==> r == s.(selectedFileId := a.selection)
    ensures a.ConnectDevice? ==> r == s.(device := a.device)
    ensures a.SaveData? ==> r.modified == a.modified && r.fileList == s.fileList && r.assetList == s.assetList
    // SET_PROJECT_NAME and SAVE_DATA touch only the fields they carry
    ensures a.SetProjectName? ==> r.name == a.name && r.(name := s.name, modified := s.modified) == s
    ensures a.SaveData? && a.key.Some? ==> r.key == a.key
    ensures a.SaveData? && a.key.None? ==> r.key == s.key
    ensures a.SaveData? ==> r.(key := s.key, modified := s.modified) == s
  {
    match a
    case CloseProject => Initial
    case OpenProject(p, now) => OpenProject(s, p, now)
    case SetProjectName(name) => s.(name := name, modified := true)
    case AddFile(f) => s.(fileList := Append(s.fileList, f), selectedFileId := Some(f.id), modified := true)
    case OpenFile(id) => s.(selectedFileId := id)
    case DeleteFile(id) => DeleteFile(s, id)
    case ModifyFile(p) => ModifyFile(s, p)
    case AddAsset(x) => s.(assetList := Append(s.assetList, x), modified := true)
    case DeleteAsset(ids) => DeleteAssets(s, ids)
    case ModifyAsset(p) => ModifyAsset(s, p)
    case ConnectDevice(d) => s.(device := d)
    case ConfigEditor(c) => ConfigEditor(s, c)
    case SaveData(key, modified) => s.(key := if key.Some? then key else s.key, modified := modified)
  }

  /** MODIFY_FILE and MODIFY_ASSET are dispatched to their cases. These two
      restate a branch of `Reduce`; they exist so that callers need not unfold it. */
  lemma ReduceModifyFile(s: EditorState, p: Patch)
    ensures Reduce(s, A.ModifyFile(p)) == ModifyFile(s, p)
  {
  }

  lemma ReduceModifyAsset(s: EditorState, p: Patch)
    ensures Reduce(s, A.ModifyAsset(p)) == ModifyAsset(s, p)
  {
  }

  /** CLOSE_PROJECT forgets everything: from any two states it reaches the same one. */
  lemma CloseForgets(s: EditorState, t: EditorState)
    ensures Reduce(s, A.CloseProject) == Reduce(t, A.CloseProject) == Initial
  {
  }
}

=== FILE: naming.dfy ===
/** Name-collision resolution for new and renamed files and assets
    (`autoRename` in src/hooks/editor-provider.js). */
module Naming {
  import opened Text
  import opened Records

  /** `name.replace(/\d+$/, '')`: the name without its trailing run of digits. */
  function Stem(name: string): (r: string)
    ensures |r| <= |name| && r == name[..|r|]
    ensures NoTrailingDigit(r) && AllDigits(name[|r|..])
  {
    name[..DigitRunStart(name)]
  }

  /** Whether `new RegExp(`${stem}(\\d+)$`).exec(n)` succeeds: `n` ends in a
      non-empty run of digits, and `stem` ends right where that run begins.
      (The stem is taken literally: no regular-expression metacharacters.) */
  predicate Matches(stem: string, n: string) {
    var k := DigitRunStart(n);
    k < |n| && |stem| <= k && n[k - |stem|..k] == stem
  }

  /** `parseInt` of the captured digits: the number `n` ends with. */
  function Suffix(n: string): nat {
    ParseDecimal(n[DigitRunStart(n)..])
  }

  lemma {:induction false} DigitRunWithin(a: string, d: string)
    requires AllDigits(d)
    ensures DigitRunStart(a + d) <= |a|
    decreases |d|
  {
    if |d| == 0 {
      assert a + d == a;
    } else {
      var s := a + d;
      assert IsDigit(s[|s| - 1]);
      assert s[..|s| - 1] == a + d[..|d| - 1];
      DigitRunWithin(a, d[..|d| - 1]);
    }
  }

  /** `Matches` is the regular expression's semantics: whenever `n` splits as
      anything, then the stem, then a non-empty run of digits, the expression
      matches, and (for a non-empty stem, whose last character is not a digit)
      the captured digits are exactly the trailing run `Suffix` reads. With an
      empty stem the leftmost match is reported, whose digits are again the
      whole trailing run. */
  lemma RegexSplit(stem: string, n: string, p: string, d: string)
    requires NoTrailingDigit(stem)
    requires n == p + stem + d && |d| > 0 && AllDigits(d)
    ensures Matches(stem, n)
    ensures |stem| > 0 ==> d == n[DigitRunStart(n)..]
  {
    if |stem| > 0 {
      assert NoTrailingDigit(p + stem) by {
        assert (p + stem)[|p + stem| - 1] == stem[|stem| - 1];
      }
      DigitRunOfConcat(p + stem, d);
      assert n[|p|..|p| + |stem|] == stem;
    } else {
      assert n == p + d;
      DigitRunWithin(p, d);
    }
  }

  /** Conversely, a match splits `n` as prefix, stem, captured digits. */
  lemma MatchSplit(stem: string, n: string)
    requires Matches(stem, n)
    ensures var k := DigitRunStart(n);
      n == n[..k - |stem|] + stem + n[k..] && |n[k..]| > 0 && AllDigits(n[k..])
  {
    var k := DigitRunStart(n);
    assert n == n[..k - |stem|] + n[k - |stem|..k] + n[k..];
  }

  /** The largest number `parseInt` reads from the existing names that match
      the stem, or 0 when none does (the `for` loop of `autoRename`). */
  function MaxSuffix(items: seq<Item>, stem: string): (m: nat)
    ensures forall i :: 0 <= i < |items| && Matches(stem, items[i].name) ==> Suffix(items[i].name) <= m
    ensures m == 0 || exists i :: 0 <= i < |items| && Matches(stem, items[i].name) && Suffix(items[i].name) == m
  {
    if |items| == 0 then 0
    else
      var m := MaxSuffix(items[..|items| - 1], stem);
      var n := items[|items| - 1].name;
      assert forall i :: 0 <= i < |items| - 1 ==> items[..|items| - 1][i] == items[i];
      if Matches(stem, n) && Suffix(n) > m then Suffix(n) else m
  }

  /** Some existing record already carries exactly this name. */
  predicate NameTaken(items: seq<Item>, name: string) {
    exists i :: 0 <= i < |items| && items[i].name == name
  }

  /** A stem followed by a number is matched by that stem, has that stem, and
      reads back as that number. */
  lemma NumberedName(stem: string, v: nat)
    requires NoTrailingDigit(stem)
    ensures var r := stem + DecimalString(v);
      Matches(stem, r) && Suffix(r) == v && Stem(r) == stem
  {
    var r := stem + DecimalString(v);
    DigitRunOfConcat(stem, DecimalString(v));
    assert r[..|stem|] == stem;
    assert r[|stem|..] == DecimalString(v);
    ParseDecimalString(v);
  }

  /** The number given on a collision: one more than the largest number among
      the existing names that match the stem. It is above every such number,
      and it is 1 or one more than one of them. */
  function NextNumber(items: seq<Item>, stem: string): (v: nat)
    ensures AboveAll(items, stem, v)
    ensures v == 1 || NextAfterSome(items, stem, v)
  {
    var m := MaxSuffix(items, stem);
    MaxIsAttained(items, stem, m);
    m + 1
  }

  /** A non-zero maximum is the number of some matching name. */
  lemma MaxIsAttained(items: seq<Item>, stem: string, m: nat)
    requires m == MaxSuffix(items, stem)
    ensures m == 0 || NextAfterSome(items, stem, m + 1)
  {
    if m != 0 {
      var i :| 0 <= i < |items| && Matches(stem, items[i].name) && Suffix(items[i].name) == m;
    }
  }

  /** The name chosen on a collision: the stem followed by `NextNumber`. The
      stem matches it and `parseInt` reads that number back from it. */
  function NextName(items: seq<Item>, stem: string): (r: string)
    requires NoTrailingDigit(stem)
    ensures Stem(r) == stem && Matches(stem, r)
    ensures Suffix(r) == NextNumber(items, stem)
    ensures |r| > |stem| && r[..|stem|] == stem && r[|stem|] != '0'
  {
    NumberedName(stem, NextNumber(items, stem));
    stem + DecimalString(NextNumber(items, stem))
  }

  /** `autoRename(items, name)`: the trimmed name when no record carries it,
      otherwise `NextName` of its stem. The result never collides with an
      existing name. */
  function AutoRename(items: seq<Item>, name: string): (r: string)
    ensures !NameTaken(items, r)
    ensures !NameTaken(items, Trim(name)) ==> r == Trim(name)
    ensures NameTaken(items, Trim(name)) ==> r == NextName(items, Stem(Trim(name)))
  {
    var t := Trim(name);
    if NameTaken(items, t) then
      var r := NextName(items, Stem(t));
      NotTaken(items, Stem(t), r);
      r
    else
      t
  }

  /** The collision name is not taken: a name the stem does not match differs
      from it, and one it does match carries a smaller number. */
  lemma NotTaken(items: seq<Item>, stem: string, r: string)
    requires NoTrailingDigit(stem) && r == NextName(items, stem)
    ensures !NameTaken(items, r)
  {
    forall i | 0 <= i < |items| ensures items[i].name != r {
      if Matches(stem, items[i].name) {
        assert Suffix(items[i].name) < Suffix(r);
      }
    }
  }

  /** Every existing name that matches the stem carries a number below `v`. */
  predicate AboveAll(items: seq<Item>, stem: string, v: nat) {
    forall i :: 0 <= i < |items| && Matches(stem, items[i].name) ==> Suffix(items[i].name) < v
  }

  /** `v` is one more than the number of some existing name matching the stem. */
  predicate NextAfterSome(items: seq<Item>, stem: string, v: nat) {
    exists i :: 0 <= i < |items| && Matches(stem, items[i].name) && Suffix(items[i].name) + 1 == v
  }

  /** The worked example: with `Sprite1` and `Sprite2` present, `Sprite1` is
      renamed `Sprite3` and `Sprite` is kept. */
  lemma SpriteExample(items: seq<Item>)
    requires |items| == 2 && items[0].name == "Sprite1" && items[1].name == "Sprite2"
    ensures AutoRename(items, "Sprite1") == "Sprite3"
    ensures AutoRename(items, "Sprite") == "Sprite"
  {
    SpriteKept(items);
    SpriteCollides(items);
    SpriteNextName(items);
  }

  lemma SpriteNextName(items: seq<Item>)
    requires |items| == 2 && items[0].name == "Sprite1" && items[1].name == "Sprite2"
    ensures NextName(items, "Sprite") == "Sprite3"
  {
    SpriteNumber(items);
    NextNameIs(items, "Sprite", 3);
    DecimalThree();
  }

  lemma DecimalThree()
    ensures DecimalString(3) == "3"
  {
  }

  /** The next name is the stem followed by the next number written out. This
      restates `NextName` for a known number, so the Sprite lemmas need not unfold it. */
  lemma NextNameIs(items: seq<Item>, stem: string, v: nat)
    requires NoTrailingDigit(stem) && NextNumber(items, stem) == v
    ensures NextName(items, stem) == stem + DecimalString(v)
  {
  }

  lemma SpriteKept(items: seq<Item>)
    requires |items| == 2 && items[0].name == "Sprite1" && items[1].name == "Sprite2"
    ensures AutoRename(items, "Sprite") == "Sprite"
  {
    SpriteBareTrim();
    assert !NameTaken(items, "Sprite") by {
      assert items[0].name != "Sprite" && items[1].name != "Sprite";
    }
  }

  lemma SpriteCollides(items: seq<Item>)
    requires |items| == 2 && items[0].name == "Sprite1" && items[1].name == "Sprite2"
    ensures AutoRename(items, "Sprite1") == NextName(items, "Sprite")
  {
    SpriteTrim();
    assert NameTaken(items, "Sprite1") by { assert items[0].name == "Sprite1"; }
    SpriteStem();
  }

  lemma SpriteBareTrim()
    ensures Trim("Sprite") == "Sprite"
  {
    TrimFixpoint("Sprite");
  }

  lemma SpriteTrim()
    ensures Trim("Sprite1") == "Sprite1"
  {
    TrimFixpoint("Sprite1");
  }

  lemma SpriteStem()
    ensures Stem("Sprite1") == "Sprite"
  {
    assert "Sprite1" == "Sprite" + DecimalString(1);
    NumberedName("Sprite", 1);
  }

  lemma SpriteNumber(items: seq<Item>)
    requires |items| == 2 && items[0].name == "Sprite1" && items[1].name == "Sprite2"
    ensures NextNumber(items, "Sprite") == 3
  {
    assert "Sprite1" == "Sprite" + DecimalString(1);
    assert "Sprite2" == "Sprite" + DecimalString(2);
    NumberedName("Sprite", 1);
    NumberedName("Sprite", 2);
    var v := NextNumber(items, "Sprite");
    assert v > 2 by {
      assert Matches("Sprite", items[1].name);
    }
    if v != 1 {
      var i :| 0 <= i < |items| && Matches("Sprite", items[i].name) && Suffix(items[i].name) + 1 == v;
      assert i == 0 || i == 1;
    }
  }
}

=== FILE: project_store.dfy ===
/** The project store (src/contexts/project-context.jsx): project fields, two
    ordered collections (files and assets) each with a current selection, and
    a modification counter. Every exported function runs as one batch, so each
    is modelled as one transition from a project to the next. */
module ProjectStore {
  import opened Wrappers
  import opened Records

  datatype Project = Project(
    meta: Option<Fields>,
    id: Option<string>,
    key: Option<string>,
    name: string,
    files: Option<seq<Item>>,
    fileId: Option<string>,
    assets: Option<seq<Item>>,
    assetId: Option<string>,
    modified: nat)

  /** The store before a project is opened, and after `closeProject`: both
      collections are null. */
  const Closed := Project(None, None, None, "", None, None, None, None, 0)

  /** A record handed to `addFile`/`addAsset`; its id may be missing or empty. */
  datatype Draft = Draft(id: Option<string>, name: string, extra: Fields)

  /** The record `openProject` reads. */
  datatype Snapshot = Snapshot(
    meta: Option<Fields>,
    id: Option<string>,
    key: Option<string>,
    name: string,
    files: Option<seq<Item>>,
    fileId: Option<string>,
    assets: Option<seq<Item>>,
    assetId: Option<string>)

  /** The computed index of the selection: -1 for a null list, no selection or
      a selection naming no record. */
  function SelectedIndex(items: Option<seq<Item>>, sel: Option<string>): (k: int)
    ensures k == -1 <==> items.None? || sel.None? || !HasId(items.value, sel.value)
    ensures k != -1 ==> 0 <= k < |items.value| && items.value[k].id == sel.value
    ensures forall j :: 0 <= j < k ==> items.value[j].id != sel.value
  {
    if items.None? || sel.None? then -1 else FindIndex(items.value, sel.value)
  }

  /** The computed selected record, or null. */
  function SelectedItem(items: Option<seq<Item>>, sel: Option<string>): (r: Option<Item>)
    ensures r.Some? <==> SelectedIndex(items, sel) != -1
    ensures r.Some? ==> r.value == items.value[SelectedIndex(items, sel)]
  {
    if items.None? || sel.None? then None else Find(items.value, sel.value)
  }

  /** `fileIndex`: the position of the first file carrying the selected id, or -1. */
  function FileIndex(p: Project): (k: int)
    ensures k == -1 <==> p.files.None? || p.fileId.None? || !HasId(p.files.value, p.fileId.value)
    ensures k != -1 ==> 0 <= k < |p.files.value| && p.files.value[k].id == p.fileId.value
    ensures forall j :: 0 <= j < k ==> p.files.value[j].id != p.fileId.value
  {
    SelectedIndex(p.files, p.fileId)
  }

  /** `file`: the selected file, or null; it is the file at `fileIndex`. */
  function File(p: Project): (r: Option<Item>)
    ensures r.Some? <==> FileIndex(p) != -1
    ensures r.Some? ==> r.value == p.files.value[FileIndex(p)]
  {
    SelectedItem(p.files, p.fileId)
  }

  /** `assetIndex`: the position of the first asset carrying the selected id, or -1. */
  function AssetIndex(p: Project): (k: int)
    ensures k == -1 <==> p.assets.None? || p.assetId.None? || !HasId(p.assets.value, p.assetId.value)
    ensures k != -1 ==> 0 <= k < |p.assets.value| && p.assets.value[k].id == p.assetId.value
    ensures forall j :: 0 <= j < k ==> p.assets.value[j].id != p.assetId.value
  {
    SelectedIndex(p.assets, p.assetId)
  }

  /** `asset`: the selected asset, or null; it is the asset at `assetIndex`. */
  function Asset(p: Project): (r: Option<Item>)
    ensures r.Some? <==> AssetIndex(p) != -1
    ensures r.Some? ==> r.value == p.assets.value[AssetIndex(p)]
  {
    SelectedItem(p.assets, p.assetId)
  }

  /** `openFile`: sets the selection without checking it. */
  function OpenFile(p: Project, id: Option<string>): (r: Project)
    ensures r == p.(fileId := id)
    ensures id.Some? && r.files.Some? && !HasId(r.files.value, id.value) ==> File(r).None? && FileIndex(r) == -1
  {
    p.(fileId := id)
  }

  /** `openAsset`: sets the selection without checking it. */
  function OpenAsset(p: Project, id: Option<string>): (r: Project)
    ensures r == p.(assetId := id)
    ensures id.Some? && r.assets.Some? && !HasId(r.assets.value, id.value) ==> Asset(r).None? && AssetIndex(r) == -1
  {
    p.(assetId := id)
  }

  /** The id a draft is added under: its own when given, a generated `nanoid()` one otherwise. */
  function IdOrFresh(id: Option<string>, newId: string): string {
    if Given(id) then id.value else newId
  }

  /** The record `setFile`/`setAsset` targets: the one named by the update's
      id when given, else the selected one. */
  function TargetOf(sel: Option<string>, res: Patch): Option<string> {
    if Given(res.id) then res.id else sel
  }

  /** Some record carries the target id. */
  predicate Targets(items: Option<seq<Item>>, sel: Option<string>, res: Patch) {
    items.Some? && TargetOf(sel, res).Some? && HasId(items.value, TargetOf(sel, res).value)
  }

  /** Where an update lands: a throw, nowhere, or a position. */
  datatype Slot = Throws | Nowhere | At(index: nat)

  function Locate(items: Option<seq<Item>>, sel: Option<string>, res: Patch): (t: Slot)
    ensures t.Throws? <==> Given(res.id) && items.None?
    ensures t.Nowhere? ==> !Targets(items, sel, res)
    ensures t.At? ==> Targets(items, sel, res) && t.index == FindIndex(items.value, TargetOf(sel, res).value)
  {
    if Given(res.id) then
      if items.None? then Throws
      else
        var k := FindIndex(items.value, res.id.value);
        if k == -1 then Nowhere else At(k)
    else
      var k := SelectedIndex(items, sel);
      if k == -1 then Nowhere else At(k)
  }

  /** `Object.assign(found, res, { id: found.id })`: the update's fields, but the original id. */
  function MergeKeepId(found: Item, res: Patch): (r: Item)
    ensures r.id == found.id && r.name == res.name.GetOr(found.name) && r.extra == found.extra + res.extra
  {
    Merge(found, res).(id := found.id)
  }

  /** `setFile`: merges the update into the file named by its id, or into the
      selected file when it has none. No target: nothing changes. Otherwise
      only that file changes, keeping its id, and the counter goes up by one.
      An update carrying an id throws on a closed project. */
  function SetFile(p: Project, res: Patch): (r: Result<Project, Fault>)
    ensures r.Failure? <==> Given(res.id) && p.files.None?
    ensures r.Success? && !Targets(p.files, p.fileId, res) ==> r.value == p
    ensures r.Success? && Targets(p.files, p.fileId, res) ==>
      var fs := p.files.value;
      var k := FindIndex(fs, TargetOf(p.fileId, res).value);
      && r.value == p.(files := r.value.files, modified := p.modified + 1)
      && r.value.files.Some? && |r.value.files.value| == |fs|
      && (forall j :: 0 <= j < |fs| && j != k ==> r.value.files.value[j] == fs[j])
      && r.value.files.value[k].id == fs[k].id
      && r.value.files.value[k].name == res.name.GetOr(fs[k].name)
      && r.value.files.value[k].extra == fs[k].extra + res.extra
  {
    match Locate(p.files, p.fileId, res)
    case Throws => Failure(TypeError)
    case Nowhere => Success(p)
    case At(k) =>
      Success(p.(files := Some(p.files.value[k := MergeKeepId(p.files.value[k], res)]), modified := p.modified + 1))
  }

  /** `setAsset`: as `setFile`, on the assets and the asset selection. */
  function SetAsset(p: Project, res: Patch): (r: Result<Project, Fault>)
    ensures r.Failure? <==> Given(res.id) && p.assets.None?
    ensures r.Success? && !Targets(p.assets, p.assetId, res) ==> r.value == p
    ensures r.Success? && Targets(p.assets, p.assetId, res) ==>
      var xs := p.assets.value;
      var k := FindIndex(xs, TargetOf(p.assetId, res).value);
      && r.value == p.(assets := r.value.assets, modified := p.modified + 1)
      && r.value.assets.Some? && |r.value.assets.value| == |xs|
      && (forall j :: 0 <= j < |xs| && j != k ==> r.value.assets.value[j] == xs[j])
      && r.value.assets.value[k].id == xs[k].id
      && r.value.assets.value[k].name == res.name.GetOr(xs[k].name)
      && r.value.assets.value[k].extra == xs[k].extra + res.extra
  {
    match Locate(p.assets, p.assetId, res)
    case Throws => Failure(TypeError)
    case Nowhere => Success(p)
    case At(k) =>
      Success(p.(assets := Some(p.assets.value[k := MergeKeepId(p.assets.value[k], res)]), modified := p.modified + 1))
  }

  /** The update `addFile`/`addAsset` hands to `setFile`/`setAsset` when the id is taken. */
  function AsUpdate(res: Draft, newId: string): Patch {
    Patch(Some(IdOrFresh(res.id, newId)), Some(res.name), res.extra)
  }

  /** `addFile`: a missing id is replaced by a generated one. An id already present
      makes it exactly `setFile`; otherwise the file is appended, selected, and
      the counter goes up by one. Throws on a closed project. */
  function AddFile(p: Project, res: Draft, newId: string): (r: Result<Project, Fault>)
    ensures r.Failure? <==> p.files.None?
    ensures p.files.Some? && HasId(p.files.value, IdOrFresh(res.id, newId)) ==>
      r == SetFile(p, AsUpdate(res, newId))
    ensures p.files.Some? && !HasId(p.files.value, IdOrFresh(res.id, newId)) ==>
      && r.Success?
      && r.value == p.(files := r.value.files, fileId := Some(IdOrFresh(res.id, newId)), modified := p.modified + 1)
      && r.value.files == Some(p.files.value + [Item(IdOrFresh(res.id, newId), res.name, res.extra)])
  {
    var id := IdOrFresh(res.id, newId);
    if p.files.None? then Failure(TypeError)
    else if HasId(p.files.value, id) then SetFile(p, AsUpdate(res, newId))
    else Success(p.(files := Some(p.files.value + [Item(id, res.name, res.extra)]), fileId := Some(id), modified := p.modified + 1))
  }

  /** `addAsset`: as `addFile`, on the assets and the asset selection. */
  function AddAsset(p: Project, res: Draft, newId: string): (r: Result<Project, Fault>)
    ensures r.Failure? <==> p.assets.None?
    ensures p.assets.Some? && HasId(p.assets.value, IdOrFresh(res.id, newId)) ==>
      r == SetAsset(p, AsUpdate(res, newId))
    ensures p.assets.Some? && !HasId(p.assets.value, IdOrFresh(res.id, newId)) ==>
      && r.Success?
      && r.value == p.(assets := r.value.assets, assetId := Some(IdOrFresh(res.id, newId)), modified := p.modified + 1)
      && r.value.assets == Some(p.assets.value + [Item(IdOrFresh(res.id, newId), res.name, res.extra)])
  {
    var id := IdOrFresh(res.id, newId);
    if p.assets.None? then Failure(TypeError)
    else if HasId(p.assets.value, id) then SetAsset(p, AsUpdate(res, newId))
    else Success(p.(assets := Some(p.assets.value + [Item(id, res.name, res.extra)]), assetId := Some(id), modified := p.modified + 1))
  }

  /** The position `delFile`/`delAsset` removes: the selection's index when the
      id is the selected one, else the id's first position; -1 when absent.
      Looking the id up in a null list throws (`None`). */
  function DeletionIndex(items: Option<seq<Item>>, sel: Option<string>, id: string): (k: Option<int>)
    ensures k.None? <==> items.None? && sel != Some(id)
    ensures k.Some? && items.Some? ==> k.value == FindIndex(items.value, id)
    ensures k.Some? && items.None? ==> k.value == -1
  {
    if sel == Some(id) then Some(SelectedIndex(items, sel))
    else if items.None? then None
    else Some(FindIndex(items.value, id))
  }

  /** `delFile`: removes the first file carrying the id and moves the selection
      to the file now at its position, else to the new last file, else to
      nothing, whether or not the deleted file was selected; the counter goes
      up by one. An unknown id changes nothing. */
  function DelFile(p: Project, id: string): (r: Result<Project, Fault>)
    ensures r.Failure? <==> p.files.None? && p.fileId != Some(id)
    ensures r.Success? && (p.files.None? || !HasId(p.files.value, id)) ==> r.value == p
    ensures r.Success? && p.files.Some? && HasId(p.files.value, id) ==>
      var fs := p.files.value;
      var k := FindIndex(fs, id);
      var rest := fs[..k] + fs[k + 1..];
      && r.value == p.(files := Some(rest), fileId := r.value.fileId, modified := p.modified + 1)
      && r.value.fileId == if k < |rest| then Some(rest[k].id)
                           else if 0 < |rest| then Some(rest[|rest| - 1].id)
                           else None
  {
    match DeletionIndex(p.files, p.fileId, id)
    case None => Failure(TypeError)
    case Some(k) =>
      if k == -1 then Success(p)
      else
        var fs := p.files.value;
        var next := if k + 1 < |fs| then Some(fs[k + 1].id)
                    else if k - 1 > -1 then Some(fs[k - 1].id)
                    else None;
        Success(p.(files := Some(fs[..k] + fs[k + 1..]), fileId := next, modified := p.modified + 1))
  }

  /** `delAsset`: removes the first asset carrying the id and clears the asset
      selection (it never picks a neighbour); the counter goes up by one. An
      unknown id changes nothing. */
  function DelAsset(p: Project, id: string): (r: Result<Project, Fault>)
    ensures r.Failure? <==> p.assets.None? && p.assetId != Some(id)
    ensures r.Success? && (p.assets.None? || !HasId(p.assets.value, id)) ==> r.value == p
    ensures r.Success? && p.assets.Some? && HasId(p.assets.value, id) ==>
      var xs := p.assets.value;
      var k := FindIndex(xs, id);
      r.value == p.(assets := Some(xs[..k] + xs[k + 1..]), assetId := None, modified := p.modified + 1)
  {
    match DeletionIndex(p.assets, p.assetId, id)
    case None => Failure(TypeError)
    case Some(k) =>
      if k == -1 then Success(p)
      else Success(p.(assets := Some(p.assets.value[..k] + p.assets.value[k + 1..]), assetId := None, modified := p.modified + 1))
  }

  /** Every record of a list with its name passed through the translator. */
  function Translated(items: Option<seq<Item>>, tr: string -> string): (r: Option<seq<Item>>)
    ensures r.Some? <==> items.Some?
    ensures r.Some? ==> |r.value| == |items.value|
    ensures r.Some? ==> forall i :: 0 <= i < |items.value| ==>
      (r.value[i].id == items.value[i].id && r.value[i].extra == items.value[i].extra
       && r.value[i].name == tr(items.value[i].name))
  {
    if items.None? then None
    else Some(seq(|items.value|, i requires 0 <= i < |items.value| =>
      items.value[i].(name := tr(items.value[i].name))))
  }

  /** `openProject`: the project fields, the translated files and assets and
      the selections exactly as stored (not checked); a missing key becomes a
      generated id. The counter is left alone. */
  function OpenProject(p: Project, res: Snapshot, tr: string -> string, newId: string): (r: Project)
    ensures r.meta == res.meta && r.id == res.id && r.name == tr(res.name)
    ensures r.key == Some(res.key.GetOr(newId))
    ensures r.fileId == res.fileId && r.assetId == res.assetId
    ensures r.files == Translated(res.files, tr) && r.assets == Translated(res.assets, tr)
    ensures r.modified == p.modified
  {
    Project(res.meta, res.id, Some(res.key.GetOr(newId)), tr(res.name),
      Translated(res.files, tr), res.fileId, Translated(res.assets, tr), res.assetId, p.modified)
  }

  /** `closeProject`: every field back to empty and the counter to zero; no
      file or asset is selected afterwards. */
  function CloseProject(p: Project): (r: Project)
    ensures r.modified == 0 && r.files.None? && r.assets.None?
    ensures r.meta.None? && r.id.None? && r.key.None? && r.name == ""
    ensures r.fileId.None? && r.assetId.None?
    ensures FileIndex(r) == -1 && File(r).None? && AssetIndex(r) == -1 && Asset(r).None?
  {
    Closed
  }

  /** Adding keeps file ids distinct, and with a non-empty id (always the case
      for a generated one) the counter goes up by exactly one. */
  lemma AddFileKeepsDistinct(p: Project, res: Draft, newId: string)
    requires p.files.Some? && DistinctIds(p.files.value)
    ensures var r := AddFile(p, res, newId);
      && r.Success? && DistinctIds(r.value.files.value)
      && (IdOrFresh(res.id, newId) != "" ==> r.value.modified == p.modified + 1)
  {
    var id := IdOrFresh(res.id, newId);
    var fs := p.files.value;
    if !HasId(fs, id) {
      var rs := fs + [Item(id, res.name, res.extra)];
      forall i, j | 0 <= i < j < |rs| ensures rs[i].id != rs[j].id {
        assert rs[i] == fs[i];
        if j < |fs| { assert rs[j] == fs[j]; }
      }
    } else {
      var r := SetFile(p, AsUpdate(res, newId));
      if Targets(p.files, p.fileId, AsUpdate(res, newId)) {
        var rs := r.value.files.value;
        forall i, j | 0 <= i < j < |rs| ensures rs[i].id != rs[j].id {
          assert rs[i].id == fs[i].id && rs[j].id == fs[j].id;
        }
      }
    }
  }

  /** Deleting keeps file ids distinct, and a selection it sets names a remaining file. */
  lemma DelFileKeepsDistinct(p: Project, id: string)
    requires p.files.Some? && DistinctIds(p.files.value)
    ensures var r := DelFile(p, id);
      && r.Success? && DistinctIds(r.value.files.value)
      && (r.value.fileId != p.fileId && r.value.fileId.Some? ==> HasId(r.value.files.value, r.value.fileId.value))
  {
    var fs := p.files.value;
    if HasId(fs, id) {
      var k := FindIndex(fs, id);
      DistinctAfterSplice(fs, k);
      var r := DelFile(p, id);
      var rest := fs[..k] + fs[k + 1..];
      if r.value.fileId.Some? {
        if k < |rest| {
          assert rest[k].id == r.value.fileId.value;
        } else {
          assert rest[|rest| - 1].id == r.value.fileId.value;
        }
      }
    }
  }

  /** Adding keeps asset ids distinct, and with a non-empty id the counter goes
      up by exactly one. */
  lemma AddAssetKeepsDistinct(p: Project, res: Draft, newId: string)
    requires p.assets.Some? && DistinctIds(p.assets.value)
    ensures var r := AddAsset(p, res, newId);
      && r.Success? && DistinctIds(r.value.assets.value)
      && (IdOrFresh(res.id, newId) != "" ==> r.value.modified == p.modified + 1)
  {
    var id := IdOrFresh(res.id, newId);
    var xs := p.assets.value;
    if !HasId(xs, id) {
      var rs := xs + [Item(id, res.name, res.extra)];
      forall i, j | 0 <= i < j < |rs| ensures rs[i].id != rs[j].id {
        assert rs[i] == xs[i];
        if j < |xs| { assert rs[j] == xs[j]; }
      }
    } else {
      var r := SetAsset(p, AsUpdate(res, newId));
      if Targets(p.assets, p.assetId, AsUpdate(res, newId)) {
        var rs := r.value.assets.value;
        forall i, j | 0 <= i < j < |rs| ensures rs[i].id != rs[j].id {
          assert rs[i].id == xs[i].id && rs[j].id == xs[j].id;
        }
      }
    }
  }

  /** Deleting keeps asset ids distinct and leaves no asset selected. */
  lemma DelAssetKeepsDistinct(p: Project, id: string)
    requires p.assets.Some? && DistinctIds(p.assets.value)
    ensures var r := DelAsset(p, id);
      && r.Success? && DistinctIds(r.value.assets.value)
      && (HasId(p.assets.value, id) ==> r.value.assetId.None? && Asset(r.value).None?)
  {
    if HasId(p.assets.value, id) {
      DistinctAfterSplice(p.assets.value, FindIndex(p.assets.value, id));
    }
  }

  /** The store before opening matters only through its counter. */
  lemma OpenProjectForgets(p: Project, q: Project, res: Snapshot, tr: string -> string, newId: string)
    requires p.modified == q.modified
    ensures OpenProject(p, res, tr, newId) == OpenProject(q, res, tr, newId)
  {
  }
}

=== FILE: records.dfy ===
/** Files and assets: the records both stores keep in ordered lists, and the
    list queries (`find`, `findIndex`, `filter`) the stores are built from. */
module Records {
  import opened Wrappers

  /** A JSON value, as found in the free-form fields of a record. */
  datatype Value =
    | Null
    | Bool(b: bool)
    | Num(n: int)
    | Str(s: string)
    | Arr(elems: seq<Value>)
    | Obj(fields: map<string, Value>)

  type Fields = map<string, Value>

  /** JavaScript truthiness of a value. */
  predicate Truthy(v: Value) {
    match v
    case Null => false
    case Bool(b) => b
    case Num(n) => n != 0
    case Str(s) => s != ""
    case Arr(_) => true
    case Obj(_) => true
  }

  /** JavaScript truthiness of an optional string field: present and non-empty. */
  predicate Given(o: Option<string>) {
    o.Some? && o.value != ""
  }

  /** A file or an asset: its identifier, its display name and every other field. */
  datatype Item = Item(id: string, name: string, extra: Fields)

  /** A partial record, as passed to the update operations; absent fields are left alone. */
  datatype Patch = Patch(id: Option<string>, name: Option<string>, extra: Fields)

  /** An update in canonical form: `id` and `name` live only in their own fields,
      never among the free-form ones. A JavaScript object has one `id` key, so
      only a canonical patch stands for one. */
  predicate Canonical(p: Patch) {
    "id" !in p.extra && "name" !in p.extra
  }

  /** The `TypeError` JavaScript raises when a property of `undefined` or `null` is read. */
  datatype Fault = TypeError

  /** Shallow merge `{ ...it, ...p }`: every field the patch carries wins. */
  function Merge(it: Item, p: Patch): (r: Item)
    ensures p.id.Some? ==> r.id == p.id.value
    ensures p.id.None? ==> r.id == it.id
    ensures p.name.Some? ==> r.name == p.name.value
    ensures p.name.None? ==> r.name == it.name
    ensures r.extra.Keys == it.extra.Keys + p.extra.Keys
    ensures forall k :: k in p.extra ==> r.extra[k] == p.extra[k]
    ensures forall k :: k in it.extra && k !in p.extra ==> r.extra[k] == it.extra[k]
  {
    Item(p.id.GetOr(it.id), p.name.GetOr(it.name), it.extra + p.extra)
  }

  /** Whether some record has identifier `id`. */
  predicate HasId(items: seq<Item>, id: string) {
    exists i :: 0 <= i < |items| && items[i].id == id
  }

  /** No identifier occurs twice. */
  predicate DistinctIds(items: seq<Item>) {
    forall i, j :: 0 <= i < j < |items| ==> items[i].id != items[j].id
  }

  /** `items.findIndex((f) => f.id === id)`: the first position holding `id`, or -1. */
  function FindIndex(items: seq<Item>, id: string): (k: int)
    ensures -1 <= k < |items|
    ensures k == -1 <==> !HasId(items, id)
    ensures 0 <= k ==> items[k].id == id
    ensures forall j :: 0 <= j < k ==> items[j].id != id
  {
    if |items| == 0 then -1
    else if items[0].id == id then 0
    else
      var k := FindIndex(items[1..], id);
      if k == -1 then -1 else k + 1
  }

  /** `items.find((f) => f.id === id)`: the first record holding `id`, if any. */
  function Find(items: seq<Item>, id: string): (r: Option<Item>)
    ensures r.Some? <==> HasId(items, id)
    ensures r.Some? ==> r.value == items[FindIndex(items, id)]
  {
    if |items| == 0 then None
    else if items[0].id == id then Some(items[0])
    else Find(items[1..], id)
  }

  /** `items.filter((it) => !ids.includes(it.id))`: the records whose identifier
      is not listed, in their original order. */
  function Reject(items: seq<Item>, ids: seq<string>): (r: seq<Item>)
    ensures |r| <= |items|
    ensures forall x :: x in r <==> x in items && x.id !in ids
  {
    if |items| == 0 then []
    else if items[0].id in ids then Reject(items[1..], ids)
    else [items[0]] + Reject(items[1..], ids)
  }

  /** Filtering a concatenation filters each part: `Reject` keeps the relative order. */
  lemma {:induction false} RejectAppend(a: seq<Item>, b: seq<Item>, ids: seq<string>)
    ensures Reject(a + b, ids) == Reject(a, ids) + Reject(b, ids)
    decreases |a|
  {
    if |a| == 0 {
      assert a + b == b;
    } else {
      assert (a + b)[0] == a[0];
      assert (a + b)[1..] == a[1..] + b;
      RejectAppend(a[1..], b, ids);
    }
  }

  /** Removing one identifier from a list of distinct identifiers removes exactly
      the one record that holds it. */
  lemma RejectOne(items: seq<Item>, id: string)
    requires DistinctIds(items)
    requires HasId(items, id)
    ensures Reject(items, [id]) == items[..FindIndex(items, id)] + items[FindIndex(items, id) + 1..]
  {
    var k := FindIndex(items, id);
    var pre, post := items[..k], items[k + 1..];
    assert !HasId(pre, id) by {
      forall i | 0 <= i < |pre| ensures pre[i].id != id {
        assert pre[i] == items[i];
      }
    }
    assert !HasId(post, id) by {
      forall i | 0 <= i < |post| ensures post[i].id != id {
        assert post[i] == items[k + 1 + i];
      }
    }
    assert items == pre + [items[k]] + post;
    RejectSplice(pre, items[k], post, id);
  }

  /** Removing `id` from a list holding it only in one known place. */
  lemma RejectSplice(pre: seq<Item>, x: Item, post: seq<Item>, id: string)
    requires !HasId(pre, id) && x.id == id && !HasId(post, id)
    ensures Reject(pre + [x] + post, [id]) == pre + post
  {
    assert Reject([x], [id]) == [] by {
      assert [x][1..] == [];
    }
    RejectNone(pre, id);
    RejectNone(post, id);
    assert pre + [x] + post == pre + ([x] + post);
    RejectAppend(pre, [x] + post, [id]);
    RejectAppend([x], post, [id]);
  }

  /** A list that does not hold `id` is unchanged by removing it. */
  lemma {:induction false} RejectNone(items: seq<Item>, id: string)
    requires !HasId(items, id)
    ensures Reject(items, [id]) == items
    decreases |items|
  {
    if |items| > 0 {
      assert items[0].id != id;
      assert !HasId(items[1..], id) by {
        forall i | 0 <= i < |items| - 1 ensures items[1..][i].id != id {
          assert items[1..][i] == items[i + 1];
        }
      }
      RejectNone(items[1..], id);
      assert items == [items[0]] + items[1..];
    }
  }

  /** The records of a list of distinct identifiers, minus one, still have distinct identifiers. */
  lemma DistinctAfterSplice(items: seq<Item>, k: nat)
    requires DistinctIds(items) && k < |items|
    ensures DistinctIds(items[..k] + items[k + 1..])
  {
    var r := items[..k] + items[k + 1..];
    forall i, j | 0 <= i < j < |r| ensures r[i].id != r[j].id {
      var i' := if i < k then i else i + 1;
      var j' := if j < k then j else j + 1;
      assert r[i] == items[i'] && r[j] == items[j'];
    }
  }

  /** Filtering keeps identifiers distinct. */
  lemma {:induction false} RejectKeepsDistinct(items: seq<Item>, ids: seq<string>)
    requires DistinctIds(items)
    ensures DistinctIds(Reject(items, ids))
    decreases |items|
  {
    if |items| > 0 {
      var rest := items[1..];
      assert DistinctIds(rest) by {
        forall i, j | 0 <= i < j < |rest| ensures rest[i].id != rest[j].id {
          assert rest[i] == items[i + 1] && rest[j] == items[j + 1];
        }
      }
      RejectKeepsDistinct(rest, ids);
      var r := Reject(rest, ids);
      forall x | x in r ensures x.id != items[0].id {
        var j :| 0 <= j < |rest| && rest[j] == x;
        assert rest[j] == items[j + 1];
      }
    }
  }

  lemma DistinctAfterReject(items: seq<Item>, ids: seq<string>)
    ensures DistinctIds(items) ==> DistinctIds(Reject(items, ids))
  {
    if DistinctIds(items) {
      RejectKeepsDistinct(items, ids);
    }
  }

  /** `items.map(...)` replacing every record whose identifier equals `target` by
      its merge with `p`; a `None` target matches nothing. */
  function MergeWhere(items: seq<Item>, target: Option<string>, p: Patch): (r: seq<Item>)
    ensures |r| == |items|
    ensures forall i :: 0 <= i < |items| ==>
      r[i] == if Some(items[i].id) == target then Merge(items[i], p) else items[i]
  {
    seq(|items|, i requires 0 <= i < |items| =>
      if Some(items[i].id) == target then Merge(items[i], p) else items[i])
  }
}

=== FILE: text.dfy ===
/** The string operations the auto-rename algorithm relies on: `trim`, the
    regular expression `\d+$`, `parseInt` on a digit run, and number-to-string. */
module Text {

  predicate IsDigit(c: char) {
    '0' <= c <= '9'
  }

  predicate AllDigits(s: string) {
    forall i :: 0 <= i < |s| ==> IsDigit(s[i])
  }

  /** The string is empty or its last character is not a digit. */
  predicate NoTrailingDigit(s: string) {
    |s| == 0 || !IsDigit(s[|s| - 1])
  }

  /** The characters `String.prototype.trim` removes: the ECMAScript
      WhiteSpace and LineTerminator code points. */
  predicate IsSpace(c: char) {
    || c == '\t' || c == '\n' || c == '\U{000B}' || c == '\U{000C}' || c == '\r'
    || c == ' ' || c == '\U{00A0}' || c == '\U{1680}'
    || ('\U{2000}' <= c <= '\U{200A}')
    || c == '\U{2028}' || c == '\U{2029}' || c == '\U{202F}' || c == '\U{205F}'
    || c == '\U{3000}' || c == '\U{FEFF}'
  }

  function TrimEnd(s: string): (r: string)
    ensures |r| <= |s| && r == s[..|r|]
    ensures forall i :: |r| <= i < |s| ==> IsSpace(s[i])
    ensures |r| == 0 || !IsSpace(r[|r| - 1])
  {
    if |s| > 0 && IsSpace(s[|s| - 1]) then TrimEnd(s[..|s| - 1]) else s
  }

  function TrimStart(s: string): (r: string)
    ensures |r| <= |s| && r == s[|s| - |r|..]
    ensures forall i :: 0 <= i < |s| - |r| ==> IsSpace(s[i])
    ensures |r| == 0 || !IsSpace(r[0])
  {
    if |s| > 0 && IsSpace(s[0]) then TrimStart(s[1..]) else s
  }

  /** `s` is `r` starting at offset `a`, with only white space around it. */
  predicate Padded(s: string, r: string, a: int) {
    0 <= a <= |s| - |r| && r == s[a..a + |r|]
    && (forall i :: 0 <= i < a ==> IsSpace(s[i]))
    && (forall i :: a + |r| <= i < |s| ==> IsSpace(s[i]))
  }

  /** `s.trim()`: `s` without its leading and trailing white space. */
  function Trim(s: string): (r: string)
    ensures |r| <= |s|
    ensures exists a :: Padded(s, r, a)
    ensures |r| == 0 || (!IsSpace(r[0]) && !IsSpace(r[|r| - 1]))
  {
    TrimPadded(s, TrimEnd(s));
    TrimStart(TrimEnd(s))
  }

  /** Trimming the start of a prefix whose cut-off part is white space leaves a
      padded slice of the whole string. */
  lemma TrimPadded(s: string, e: string)
    requires |e| <= |s| && e == s[..|e|]
    requires forall i :: |e| <= i < |s| ==> IsSpace(s[i])
    ensures Padded(s, TrimStart(e), |e| - |TrimStart(e)|)
  {
    var r := TrimStart(e);
    var a := |e| - |r|;
    assert r == e[a..];
    assert e[a..] == s[a..a + |r|];
    assert forall i :: 0 <= i < a ==> s[i] == e[i];
  }

  /** A string with no white space at either end is its own trim; in particular
      trimming twice is trimming once. */
  lemma TrimFixpoint(s: string)
    requires |s| == 0 || (!IsSpace(s[0]) && !IsSpace(s[|s| - 1]))
    ensures Trim(s) == s
  {
  }

  lemma TrimIdempotent(s: string)
    ensures Trim(Trim(s)) == Trim(s)
  {
    TrimFixpoint(Trim(s));
  }

  /** Where the trailing run of digits of `s` starts: `s[DigitRunStart(s)..]`
      is what `/\d+$/` matches (empty when `s` does not end in a digit). */
  function DigitRunStart(s: string): (k: nat)
    ensures k <= |s|
    ensures AllDigits(s[k..])
    ensures NoTrailingDigit(s[..k])
  {
    if |s| > 0 && IsDigit(s[|s| - 1]) then
      var k := DigitRunStart(s[..|s| - 1]);
      assert s[k..] == s[..|s| - 1][k..] + [s[|s| - 1]];
      assert s[..k] == s[..|s| - 1][..k];
      k
    else
      |s|
  }

  /** A run of digits appended to a string that does not end in a digit is
      exactly the trailing digit run of the result. */
  lemma {:induction false} DigitRunOfConcat(a: string, d: string)
    requires NoTrailingDigit(a) && AllDigits(d)
    ensures DigitRunStart(a + d) == |a|
    decreases |d|
  {
    if |d| == 0 {
      assert a + d == a;
    } else {
      var s := a + d;
      assert IsDigit(s[|s| - 1]);
      assert s[..|s| - 1] == a + d[..|d| - 1];
      DigitRunOfConcat(a, d[..|d| - 1]);
    }
  }

  function DigitValue(c: char): (v: nat)
    requires IsDigit(c)
    ensures v < 10
  {
    c as int - '0' as int
  }

  function DigitChar(v: nat): (c: char)
    requires v < 10
    ensures IsDigit(c) && DigitValue(c) == v
  {
    ('0' as int + v) as char
  }

  /** `parseInt(ds)` for a non-empty run of decimal digits. */
  function ParseDecimal(ds: string): nat
    requires AllDigits(ds)
  {
    if |ds| == 0 then 0 else 10 * ParseDecimal(ds[..|ds| - 1]) + DigitValue(ds[|ds| - 1])
  }

  /** `${n}`: the decimal representation of a natural number. */
  function DecimalString(n: nat): (r: string)
    ensures |r| > 0 && AllDigits(r)
    ensures n == 0 ==> r == "0"
    ensures n > 0 ==> r[0] != '0'
  {
    if n < 10 then [DigitChar(n)] else DecimalString(n / 10) + [DigitChar(n % 10)]
  }

  /** `parseInt` inverts number-to-string. */
  lemma {:induction false} ParseDecimalString(n: nat)
    ensures ParseDecimal(DecimalString(n)) == n
  {
    if n >= 10 {
      var s := DecimalString(n);
      assert s[..|s| - 1] == DecimalString(n / 10);
      ParseDecimalString(n / 10);
    }
  }
}

=== FILE: wrappers.dfy ===
/** Option and Result: the null/undefined values and the thrown errors of the
    modelled code, made explicit. */
module Wrappers {

  /** A value that may be absent (JavaScript `null` or `undefined`). */
  datatype Option<+T> = None | Some(value: T) {

    /** The value, or `default` when absent (the `??` operator). */
    function GetOr(default: T): T {
      match this
      case Some(v) => v
      case None => default
    }
  }

  /** The outcome of an operation that can throw. */
  datatype Result<+R, +E> = Success(value: R) | Failure(error: E)
}
